=== FILE: README.md ===
# KubeStock admin front end: rule tables and decisions in Dafny

KubeStock's web front end is a React application for running an inventory system. Admins,
warehouse staff and suppliers sign in through Asgardeo and manage products, stock, orders and
purchase orders. Most of the code is rendering and HTTP plumbing. Spread through the pages are
small rule tables and decision functions, and this project models those and proves what they
promise:

- **Sign-in and access.** Asgardeo groups are mapped to application roles. The route guard,
  the landing-page redirects, the route/role table and the role-filtered menu decide what a
  user may open.
- **Lifecycle and status rules.**
  - the product lifecycle actions an admin is offered in each state;
  - the customer-order status progression;
  - which buttons purchase orders and purchase requests show, and the precedence of their
    badges.
- **Gateway URLs.** The service prefixes and the `API.*` path builders.
- **Forms.**
  - the order form: its item list, total, validation and payload;
  - the pricing calculator's bundle list and requests;
  - the add-product payload with its optional fields;
  - the product search.
- **Dashboards.** Counters, stock-status classification, grouping by category, and the
  "first N" lists on the four dashboards.

One Dafny module per source file, plus shared modules:

- `Common`: JSON-like values and requests.
- `Text`: decimal rendering, JavaScript `parseInt` (radix 10) and `parseFloat`, ASCII
  lower-casing, substring search and `split(...)[1]`.
- `Seqs`: filter, count, sum, take and map over sequences.
- `Buckets`: a JavaScript object used as an insertion-ordered tally.
- `StockRecords`: the records the two stock dashboards share.

Fetched data, environment variables, the current date and the gateway base URL are
parameters. Code that assigns step by step is modelled as methods with loops or `modifies`
clauses: role pushing, query-parameter building, the total `reduce`, the category `forEach`,
and the form state of the order, pricing, product and purchase-order pages. Everything else
is functions.

The customer-order badge table of the order list (src/pages/orders/OrderList.jsx:61-70) is the
same table as the order details page, so both are `OrderDetails.StatusVariant`.

## Model

| member | source | states |
|---|---|---|
| ProductLifecycle.ParseState | src/pages/products/ProductLifecycle.jsx:117-123 | a state string is known exactly when it names one of the six lifecycle states, and then names exactly one |
| ProductLifecycle.AvailableActions | src/pages/products/ProductLifecycle.jsx:116-134 | non-admins get no actions; admins get exactly the table entry of a known state; an unknown state gets none; only discontinued offers two actions; activate is offered only in approved or discontinued; approve iff admin and pending_approval |
| ProductLifecycle.ArchivedIsTerminal | src/pages/products/ProductLifecycle.jsx:125 | archived offers nobody any action |
| ProductLifecycle.OnlyArchivedIsTerminal | src/pages/products/ProductLifecycle.jsx:117-123 | every state other than archived offers an admin at least one action |
| ProductLifecycle.AdminTestAgreesWithRoles | src/pages/products/ProductLifecycle.jsx:15 | for a user built by the role mapping, the page's primary-role admin test holds iff admin is among the roles |
| ProductLifecycle.StateColor | src/pages/products/ProductLifecycle.jsx:104-114 | every string gets one of five colours; gray exactly for the strings outside pending_approval, approved, active and discontinued (so draft, archived and unknown states share gray) |
| ProductLifecycle.CreateBody | src/pages/products/ProductLifecycle.jsx:60-63 | the form's fields are kept and created_by is always 1 |
| ProductLifecycle.TransitionRequest | src/pages/products/ProductLifecycle.jsx:82-85 | a POST to gateway/api/product/id/action whose body is exactly userId 1 and notes "action action" |
| ProductLifecycle.HistoryBadges | src/pages/products/ProductLifecycle.jsx:373-386 | one badge (the new state) without a truthy old state, otherwise old then new, each coloured by its state |
| ProductLifecycle.PendingPanel | src/pages/products/ProductLifecycle.jsx:168-206 | the panel is shown iff the user is an admin and something is pending; then one Approve request per pending product, in order, each the approve transition of that product |
| ProductLifecycle.ActionLabel | src/pages/products/ProductLifecycle.jsx:262 | the caption has the action's length and no hyphen |
| ProductLifecycle.StateLabel | src/pages/products/ProductLifecycle.jsx:161 | the caption has the state's length and no underscore |
| Auth.MapGroupsToRoles | src/context/AsgardeoAuthContext.jsx:59-75 | admin and supplier are granted iff some group contains the word, ignoring case; warehouse_staff iff a group contains "warehouse" or "staff", or as the fallback when nothing matched; the roles are non-empty, without repeats, in the fixed order; the primary role is among them and follows the precedence, and is admin iff admin is a role |
| Auth.PrimaryOf | src/context/AsgardeoAuthContext.jsx:69-72 | admin before warehouse_staff before supplier, warehouse_staff by default |
| Auth.HasRole | src/context/AsgardeoAuthContext.jsx:189-193 | false with no user; for one role or an array, true iff some allowed role is among the user's roles |
| Auth.DashboardFor | src/context/AsgardeoAuthContext.jsx:124-130 | the three roles map to their dashboards and anything else to /products |
| Auth.WellFormedLandsOnDashboard | src/context/AsgardeoAuthContext.jsx:69-74 | a user built by the mapping never falls back to /products, and the primary role is one of the roles |
| Auth.Session.constructor | src/context/AsgardeoAuthContext.jsx:123 | a new session has no navigation flag |
| Auth.Session.PostLogin | src/context/AsgardeoAuthContext.jsx:122-134 | navigates iff a user is loaded, loading is over and the flag is absent; the target is the role's landing page; navigating sets the flag |
| Auth.Session.Logout | src/context/AsgardeoAuthContext.jsx:146-155 | the navigation flag is cleared |
| Auth.BaseUrl | src/context/AsgardeoAuthContext.jsx:161 | the environment value unless missing or empty, else the kubestock tenant URL |
| Auth.OrgName | src/context/AsgardeoAuthContext.jsx:161-162 | the piece after the first "/t/" of the base URL, or "undefined" when there is none |
| Auth.OrgNameOfTenantUrl | src/context/AsgardeoAuthContext.jsx:162 | host + "/t/" + org with a single "/t/" yields org |
| ProtectedRoute.Guard | src/components/auth/ProtectedRoute.jsx:7-24 | loading shows the spinner whatever else holds; no user redirects to /login; the page renders iff not loading, signed in and (no role list, or one listed role held); any redirect goes to /login or /products |
| ProtectedRoute.RoleMismatchGoesToProducts | src/components/auth/ProtectedRoute.jsx:20-22 | a signed-in user holding none of the allowed roles is sent to /products |
| ProtectedRoute.GuardToLanding | src/components/auth/ProtectedRoute.jsx:7-24 | the intended guard: renders exactly when `Guard` does; a role mismatch goes to the user's own landing page instead of /products; every other outcome is `Guard`'s |
| ProtectedRoute.EmptyAllowedRolesAdmitsNobody | src/components/auth/ProtectedRoute.jsx:20-22 | an empty role array renders the page for nobody |
| ProtectedRoute.OuterGuardAddsNothing | src/App.jsx:70-76 | the layout's role-free guard around a page guard behaves exactly like the page guard |
| RootRedirect.Decide | src/components/auth/RootRedirect.jsx:13-32 | every navigation replaces; stays put iff authenticated without a loaded user; unauthenticated goes to /login; the three roles go to their dashboards and anything else to /products |
| RootRedirect.SignedInUserReachesDashboard | src/components/auth/RootRedirect.jsx:13-25 | a user built by the role mapping is sent neither to /login nor to /products |
| Login.Redirect | src/pages/auth/Login.jsx:15-24 | moves iff authenticated with a user, to the role's landing page, replacing |
| Login.RedirectAgreesWithRoot | src/pages/auth/Login.jsx:15-24 | whenever the sign-in page moves it moves where the root redirect would, and never to /login |
| Login.RegisterOrg | src/pages/auth/Login.jsx:76-78 | the non-empty text between the first and second "/t/" of the base URL whenever there is one; "kubestock" when the variable is missing, has no "/t/" or nothing after it; never empty |
| Login.Page | src/pages/auth/Login.jsx:34-43 | the loading view iff loading, otherwise the sign-in view with the registration link of that organisation |
| Login.RegisterOrgOfTenantUrl | src/pages/auth/Login.jsx:77 | a tenant URL with a single "/t/" registers with its own organisation |
| Sidebar.DashboardPath | src/components/layout/Sidebar.jsx:24-29 | one of the three dashboards; warehouse iff warehouse_staff but not admin; supplier iff supplier only; admin otherwise |
| Sidebar.DashboardEntryIsLandingPage | src/components/layout/Sidebar.jsx:24-29 | for a user built by the role mapping, the menu's dashboard is the post-login landing page |
| Sidebar.VisibleItems | src/components/layout/Sidebar.jsx:113-115 | an entry is shown iff it is in the table and one of its roles is the user's |
| Sidebar.MenuKeepsOrder | src/components/layout/Sidebar.jsx:113 | the shown entries keep the table's order |
| Sidebar.AdminOnlyEntries | src/components/layout/Sidebar.jsx:31-110 | Product Lifecycle, Suppliers, Warehouse Staff and Health Monitor are admin-only; Dashboard is listed for all three roles |
| Sidebar.SignedOutMenuIsEmpty | src/components/layout/Sidebar.jsx:113-115 | with no user nothing is shown |
| Sidebar.SupplierMenu | src/components/layout/Sidebar.jsx:31-110 | a supplier-only user sees exactly the supplier dashboard and Purchase Requests |
| AppRoutes.LayoutRoute | src/App.jsx:78-257 | each layout route keeps its pattern and has a non-empty role list |
| AppRoutes.Resolve | src/App.jsx:67-264 | /login and / are public; any other pattern outside the table is the not-found page |
| AppRoutes.LayoutNeedsSignIn | src/App.jsx:70-76 | every layout route shows a spinner while loading and sends a signed-out visitor to /login |
| AppRoutes.LayoutAccess | src/App.jsx:78-257 | a signed-in user sees a layout page iff they hold one of its roles, and is otherwise sent to /products |
| AppRoutes.AdminOnlyPages | src/App.jsx:78-85 | the admin dashboard, lifecycle, suppliers, staff and health pages render iff the user is an admin |
| AppRoutes.DashboardAccess | src/App.jsx:86-101 | the warehouse dashboard renders iff the user is an admin or warehouse staff; the supplier dashboard iff an admin or a supplier |
| AppRoutes.SupplierSentInCircles | src/App.jsx:104-111 | as written, a supplier-only user built by the role mapping is sent from /orders to /products, and from /products to /products again |
| AppRoutes.ResolveToLanding | src/App.jsx:78-257 | the route table behind the intended guard renders a page exactly when the route table as written does |
| AppRoutes.TurnedAwayUserLands | src/components/auth/ProtectedRoute.jsx:20-22 | with the intended guard, a mapped user turned away from any layout page is sent to a page that renders for them |
| AppRoutes.PurchaseRequestsNeedSupplier | src/App.jsx:204-211 | purchase requests render iff the user is a supplier; an admin without that role goes to /products |
| AppRoutes.MenuMatchesRoutes | src/App.jsx:104-257 | every menu entry after the dashboard leads to a layout route guarded by exactly the entry's roles |
| AppRoutes.ShownEntriesOpen | src/App.jsx:78-257 | every entry the menu shows renders its page for that user |
| OrderDetails.StatusVariant | src/pages/orders/OrderDetails.jsx:56-65 | each of the five statuses has its own variant, iff; anything else is default |
| OrderDetails.Forward | src/pages/orders/OrderDetails.jsx:171-198 | a forward move exists iff pending, processing or shipped; it never stays put and never returns to pending |
| OrderDetails.ForwardIsNextStep | src/pages/orders/OrderDetails.jsx:171-198 | each forward move is the next step of pending, processing, shipped, delivered |
| OrderDetails.StatusButtons | src/pages/orders/OrderDetails.jsx:171-209 | at most two buttons; cancel iff neither cancelled nor delivered (unknown statuses included); every other button is the forward move, shown first; none iff cancelled or delivered |
| OrderDetails.PendingReachesDelivered | src/pages/orders/OrderDetails.jsx:171-209 | three forward moves take pending to delivered, and delivered never moves |
| OrderDetails.PaymentBadge | src/pages/orders/OrderDetails.jsx:140-146 | success iff paid, warning otherwise; a missing or empty status reads "pending" |
| OrderDetails.Page | src/pages/orders/OrderDetails.jsx:67-82 | a spinner while loading; "Order Not Found" with no order; otherwise the status badge and buttons |
| OrderList.RowButtons | src/pages/orders/OrderList.jsx:118-142 | View first and Delete last on every row; processing offered iff pending, shipped iff processing, and no other status |
| OrderList.RowMovesAreDetailMoves | src/pages/orders/OrderList.jsx:118-135 | every quick move is a move the details page offers, and none sets delivered or cancelled |
| OrderList.FilterParams | src/pages/orders/OrderList.jsx:26-28 | status and user_id are present iff their field is non-empty, with that value, and nothing else |
| PurchaseOrders.SuppliersCannotManage | src/pages/suppliers/PurchaseOrders.jsx:15-16 | a supplier-only user cannot manage purchase orders |
| PurchaseOrders.StatusVariant | src/pages/suppliers/PurchaseOrders.jsx:196-208 | success iff received, warning iff pending, info iff approved or confirmed, primary iff ordered or shipped, danger iff cancelled or rejected, default iff the status is unlisted |
| PurchaseOrders.RowButtons | src/pages/suppliers/PurchaseOrders.jsx:258-296 | Edit always first; Mark Preparing iff confirmed; Confirm Receipt iff shipped; Rate iff received and manager; Delete iff manager; never both status buttons |
| PurchaseOrders.StatusUpdate | src/pages/suppliers/PurchaseOrders.jsx:132-149 | received goes to the receive endpoint with the fixed note; any other status goes to the status endpoint with the status alone |
| PurchaseOrders.RowStatusButtons | src/pages/suppliers/PurchaseOrders.jsx:261-278 | Mark Preparing (only on confirmed) sends preparing; Confirm Receipt (only on shipped) sends the receive call |
| PurchaseOrders.SupplierName | src/pages/suppliers/PurchaseOrders.jsx:210-213 | the name of the first supplier with the id, else "Supplier #" and the id |
| PurchaseOrders.FilterParams | src/pages/suppliers/PurchaseOrders.jsx:64-66 | status and supplier_id are present iff non-empty, with that value, and nothing else |
| PurchaseOrders.BlankForm | src/pages/suppliers/PurchaseOrders.jsx:33-40 | the six fields, status pending, today's order date, all others empty |
| PurchaseOrders.OrderForm.constructor | src/pages/suppliers/PurchaseOrders.jsx:20-40 | the blank form, nothing being edited, the modal closed |
| PurchaseOrders.OrderForm.SetField | src/pages/suppliers/PurchaseOrders.jsx:75-78 | one field changes and nothing else |
| PurchaseOrders.OrderForm.Reset | src/pages/suppliers/PurchaseOrders.jsx:80-91 | the blank form, nothing being edited, the modal closed |
| PurchaseRequests.StatusBadge | src/pages/suppliers/PurchaseRequests.jsx:117-138 | a pending, approved or rejected response decides the badge; otherwise the status with its variant |
| PurchaseRequests.StatusVariant | src/pages/suppliers/PurchaseRequests.jsx:128-137 | info iff confirmed, warning iff preparing, primary iff shipped, success iff received, danger iff cancelled, secondary iff the status is unlisted |
| PurchaseRequests.ResponseOverridesStatus | src/pages/suppliers/PurchaseRequests.jsx:117-126 | with a deciding response the status makes no difference |
| PurchaseRequests.NeverBothButtons | src/pages/suppliers/PurchaseRequests.jsx:264-281 | Respond and Mark Shipped never appear together |
| PurchaseRequests.RespondForm | src/pages/suppliers/PurchaseRequests.jsx:50-60 | response approved, quantity empty iff the request has none or 0, other fields empty |
| PurchaseRequests.ResponsePayload | src/pages/suppliers/PurchaseRequests.jsx:75-80 | the form spread, with approved_quantity as parseInt of a non-empty field and null otherwise |
| PurchaseRequests.RespondRequest | src/pages/suppliers/PurchaseRequests.jsx:75-84 | a PATCH of that payload to the request's respond URL |
| PurchaseRequests.PrefilledQuantityRoundTrips | src/pages/suppliers/PurchaseRequests.jsx:50-80 | submitting the prefilled form approves exactly the requested quantity, or null when there was none |
| PurchaseRequests.CountersBounded | src/pages/suppliers/PurchaseRequests.jsx:159-198 | pending plus approved, and in-transit plus completed, each at most the number of requests |
| PurchaseRequests.RespondableArePending | src/pages/suppliers/PurchaseRequests.jsx:264-271 | a request with a Respond button makes the pending counter at least 1 |
| Api.Prefix | src/utils/constants.js:18-24 | every service prefix begins "/api/" |
| Api.BuildUrl | src/utils/constants.js:32-34 | the URL starts with the gateway followed by "/api/" |
| Api.Url | src/utils/constants.js:43-160 | every builder's URL starts with the gateway; service URLs continue with "/api/", the gateway health URL with "/health" |
| Api.BuildUrlJoin | src/utils/constants.js:32-34 | an empty path gives gateway + prefix without a trailing slash; otherwise exactly one "/" joins them |
| Api.ByIdZeroIsBase | src/utils/constants.js:49 | byId(0) is the collection URL; any other number adds one segment |
| Api.LifecycleUrl | src/utils/constants.js:61 | ".../lifecycle" for a missing or falsy state, ".../lifecycle/state" otherwise |
| Api.ProductUrl | src/utils/constants.js:44-70 | a non-empty product path is joined under /api/product/ |
| Api.TransitionUrl | src/utils/constants.js:66 | prefix/id/action |
| Api.HistoryUrl | src/utils/constants.js:67 | prefix/id/lifecycle-history |
| Api.TransitionIsNotApprove | src/utils/constants.js:64-66 | the "approve" transition URL differs from approve(id) |
| Api.GatewayHealthNonEmpty | src/utils/constants.js:158 | the gateway health URL ends in "/health", so it is never empty |
| OrderCreate.With | src/pages/orders/OrderCreate.jsx:34-37 | the named field takes the value and the others keep theirs |
| OrderCreate.ComputeTotal | src/pages/orders/OrderCreate.jsx:40-44 | the loop yields the sum over the rows of quantity times price, each parseFloat or 0 |
| OrderCreate.BlankRowAddsNothing | src/pages/orders/OrderCreate.jsx:48-59 | appending a blank row leaves the total unchanged |
| OrderCreate.TotalSplit | src/pages/orders/OrderCreate.jsx:40-44 | the total of two lists is the sum of their totals |
| OrderCreate.TotalReplace | src/pages/orders/OrderCreate.jsx:34-44 | replacing a row changes the total by that row's change |
| OrderCreate.NameEditKeepsTotal | src/pages/orders/OrderCreate.jsx:34-44 | editing a field other than quantity or price keeps the total |
| OrderCreate.SetHeader | src/pages/orders/OrderCreate.jsx:26-32 | the named header field takes the typed text and no other field changes |
| OrderCreate.ItemPayload | src/pages/orders/OrderCreate.jsx:94-100 | exactly five keys; ids and quantity through parseInt, price through parseFloat, names as typed |
| OrderCreate.OrderPayload | src/pages/orders/OrderCreate.jsx:92-103 | the header keys plus items; shipping address, payment method, payment status and notes as typed; customer and total converted; one converted item per row, in order |
| OrderCreate.Submit | src/pages/orders/OrderCreate.jsx:72-103 | rejected iff customer or total is empty; then rejected iff some row is incomplete; otherwise sends the payload, with every row complete |
| OrderCreate.OrderForm.constructor | src/pages/orders/OrderCreate.jsx:13-24 | one blank row, credit_card, pending, everything else empty |
| OrderCreate.OrderForm.SetInput | src/pages/orders/OrderCreate.jsx:26-32 | the header changes by that field only; rows unchanged |
| OrderCreate.OrderForm.ChangeItem | src/pages/orders/OrderCreate.jsx:34-46 | only that field of that row changes; the total field becomes the total of the new rows; the list stays non-empty |
| OrderCreate.OrderForm.AddItem | src/pages/orders/OrderCreate.jsx:48-59 | exactly one blank row appended; header unchanged |
| OrderCreate.OrderForm.RemoveItem | src/pages/orders/OrderCreate.jsx:61-66 | with more than one row the indexed row is removed, otherwise nothing changes; the list never empties; the header, total included, is left as it was |
| OrderCreate.OrderForm.RemoveItemRetotalled | src/pages/orders/OrderCreate.jsx:61-66 | the same removal, then the total field recomputed from the remaining rows |
| OrderCreate.StaleTotalAfterRemoval | src/pages/orders/OrderCreate.jsx:61-103 | two complete rows totalling 13; after removing the first, the remaining row totals 3, yet submitting with the kept total sends total_amount 13 |
| PricingCalculator.With | src/pages/products/PricingCalculator.jsx:111-115 | only the named field of the line changes |
| PricingCalculator.CustomerValue | src/pages/products/PricingCalculator.jsx:62-64 | an empty customer id is null; any other value is its parseInt, null when that is NaN |
| PricingCalculator.CustomerRoundTrip | src/pages/products/PricingCalculator.jsx:62-64 | a decimal customer id arrives as that integer |
| PricingCalculator.LinePayload | src/pages/products/PricingCalculator.jsx:59-65 | exactly productId, quantity (parseInt) and customerId |
| PricingCalculator.PriceRequest | src/pages/products/PricingCalculator.jsx:51-73 | warns iff no product is selected; otherwise POSTs the line's payload to the pricing path |
| PricingCalculator.ValidLines | src/pages/products/PricingCalculator.jsx:76 | exactly the lines with a product |
| PricingCalculator.BundleRequest | src/pages/products/PricingCalculator.jsx:75-98 | warns iff no line has a product; otherwise POSTs only {items}, the converted selected lines |
| PricingCalculator.BundleKeepsOrder | src/pages/products/PricingCalculator.jsx:76 | the lines sent are a subsequence in order, each with a product |
| PricingCalculator.BlankLineSendsNothing | src/pages/products/PricingCalculator.jsx:100-105 | adding a blank line does not change the bundle request |
| PricingCalculator.LoadModule | src/pages/products/PricingCalculator.jsx:9-11 | the page module fails to load exactly when `SERVICES` is unbound; otherwise its client is rooted at `SERVICES.PRODUCT` |
| PricingCalculator.ImportedServices | src/pages/products/PricingCalculator.jsx:9 | the imported `SERVICES` is bound exactly when the constants module exports that name |
| PricingCalculator.PageFailsToLoad | src/utils/constants.js:40 | as written, with only `API` exported, the page module fails to load |
| PricingCalculator.IntendedPriceRequest | src/pages/products/PricingCalculator.jsx:51-73 | the intended single request: warns exactly when the as-written one does; otherwise the same POST and body, sent to the `API.product.calculatePrice()` URL |
| PricingCalculator.IntendedBundleRequest | src/pages/products/PricingCalculator.jsx:75-98 | the intended bundle request: warns exactly when the as-written one does; otherwise the same POST and body, sent to the `API.product.calculateBundle()` URL |
| PricingCalculator.IntendedPageLoads | src/utils/constants.js:58-59 | `API` is exported, so the intended page loads, and its requests reach gateway + "/api/product/" + "pricing/calculate" and "pricing/calculate-bundle" |
| PricingCalculator.DisplayOf | src/pages/products/PricingCalculator.jsx:276 | bundle display iff the result has a truthy items field; any array counts, even empty |
| PricingCalculator.Calculator.constructor | src/pages/products/PricingCalculator.jsx:19-27 | a blank single form and one blank bundle line |
| PricingCalculator.Calculator.SetSingle | src/pages/products/PricingCalculator.jsx:143-145 | one field of the single form changes; bundle unchanged |
| PricingCalculator.Calculator.AddBundleItem | src/pages/products/PricingCalculator.jsx:100-105 | exactly one blank line appended |
| PricingCalculator.Calculator.RemoveBundleItem | src/pages/products/PricingCalculator.jsx:107-109 | with the remove control shown (more than one line), exactly the indexed line is removed and at least one remains |
| PricingCalculator.Calculator.UpdateBundleItem | src/pages/products/PricingCalculator.jsx:111-115 | only the named field of the indexed line changes |
| Seqs.RemoveAt | src/pages/products/PricingCalculator.jsx:107-109 | for an index in range, the list without that element; otherwise the list unchanged |
| ProductAdd.AsValue | src/pages/products/ProductAdd.jsx:23-29 | a checkbox stores its checked flag, any other input its text |
| ProductAdd.BuildProductData | src/pages/products/ProductAdd.jsx:37-53 | name, sku, unit_price (parseFloat) and description (default "") always; category_id (parseInt), size and color iff filled in; no other key, in particular no is_active |
| ProductAdd.ProductForm.constructor | src/pages/products/ProductAdd.jsx:13-21 | the seven fields, all empty |
| ProductAdd.ProductForm.HandleChange | src/pages/products/ProductAdd.jsx:23-29 | the named key stores checked for a checkbox and the text otherwise; nothing else changes |
| ProductAdd.ProductForm.Submit | src/pages/products/ProductAdd.jsx:37-53 | the payload of the current form, with every value `BuildProductData` states: name, sku, parseFloat price and description always, parseInt category_id, size and color iff filled, nothing else |
| ProductList.Search | src/pages/products/ProductList.jsx:37-41 | a product is kept iff the lower-cased term occurs in its lower-cased name or SKU |
| ProductList.EmptySearchKeepsAll | src/pages/products/ProductList.jsx:37-41 | the empty term keeps every product, in order |
| ProductList.SearchKeepsOrder | src/pages/products/ProductList.jsx:37 | the result is an order-preserving subsequence |
| ProductList.SearchIgnoresCase | src/pages/products/ProductList.jsx:39-40 | the term's case does not change the result |
| ProductList.ManagersHoldRole | src/pages/products/ProductList.jsx:19-20 | for a user built by the mapping, managing iff admin or warehouse_staff is held; otherwise the user is supplier-only |
| ProductList.ManageLinksOpen | src/pages/products/ProductList.jsx:55-62 | the add and edit pages render exactly for the users offered their links |
| ProductList.CardActionFor | src/pages/products/ProductList.jsx:111-121 | an edit link to /products/edit/id iff the user can manage, else View Only |
| ProductList.ActiveBadge | src/pages/products/ProductList.jsx:107-108 | success Active iff active, danger Inactive iff not |
| ProductList.NoProductsMeansNoMatch | src/pages/products/ProductList.jsx:126-130 | "No products found" iff no product matches |
| InventoryDashboard.Status | src/pages/inventory/InventoryDashboard.jsx:65-76 | each of the four statuses iff its test holds and the earlier tests fail, the overstock test being nine tenths of the maximum |
| InventoryDashboard.BadgeLabelsDistinct | src/pages/inventory/InventoryDashboard.jsx:65-76 | equal labels iff equal statuses |
| InventoryDashboard.StatsOf | src/pages/inventory/InventoryDashboard.jsx:37-45 | total is the row count; low counts 0 < available <= reorder level, out counts available 0; together at most the total |
| InventoryDashboard.CountersMatchBadges | src/pages/inventory/InventoryDashboard.jsx:38-45 | with no negative quantities, the counters equal the number of Low Stock and Out of Stock badges |
| InventoryDashboard.NegativeIsLabelledButNotCounted | src/pages/inventory/InventoryDashboard.jsx:38-41 | a negative quantity is labelled Low Stock but not counted as low |
| StockRecords.CategoryOf | src/pages/dashboards/WarehouseDashboard.jsx:77 | the category name, or "Uncategorized" when missing; never empty |
| StockRecords.Abs | src/pages/dashboards/WarehouseDashboard.jsx:123 | the quantity or its negation, never negative |
| StockRecords.TotalCoversRows | src/pages/dashboards/WarehouseDashboard.jsx:64-65 | with no negative quantities the total is non-negative and at least any row |
| Buckets.Add | src/pages/dashboards/WarehouseDashboard.jsx:82 | the key's value grows by the amount, every other key keeps its value, and the total grows by the amount |
| Buckets.Tally | src/pages/dashboards/AdminDashboard.jsx:97-100 | no key twice, and never more keys than items |
| Buckets.Group | src/pages/dashboards/WarehouseDashboard.jsx:75-83 | the forEach loop leaves the tally of all items |
| WarehouseDashboard.StatsOf | src/pages/dashboards/WarehouseDashboard.jsx:63-71 | the quantity sum and the count of rows below their minimum, 0 when the list is missing; no pending adjustments |
| WarehouseDashboard.QuantityOf | src/pages/dashboards/WarehouseDashboard.jsx:78-81 | the quantity of the first row for the product, 0 when there is none |
| WarehouseDashboard.CategoryStockSums | src/pages/dashboards/WarehouseDashboard.jsx:74-83 | each category holds the stock of its products; the categories are those of the products, once each; together they hold all stock |
| WarehouseDashboard.StockChart | src/pages/dashboards/WarehouseDashboard.jsx:74-95 | at most five; the first five categories when products are non-empty and inventory present, the placeholder otherwise |
| WarehouseDashboard.NameOf | src/pages/dashboards/WarehouseDashboard.jsx:103-105 | the name of the first product with the id when that name is non-empty; "Product #" and the id when the name is empty, no product has the id or the list is missing |
| WarehouseDashboard.LowStockList | src/pages/dashboards/WarehouseDashboard.jsx:98-111 | empty until both lists arrive; otherwise min(3, number of low rows) entries, entry i being low row i with its product name, quantity and minimum |
| WarehouseDashboard.LowStockEntriesAreLowRows | src/pages/dashboards/WarehouseDashboard.jsx:98-109 | entry i is the inventory row below its minimum that has exactly i such rows before it, so the list holds the first low rows in inventory order |
| WarehouseDashboard.RecentMovements | src/pages/dashboards/WarehouseDashboard.jsx:114-128 | the first at most three movements, in order, quantity unsigned, named by product |
| AdminDashboard.StatsOf | src/pages/dashboards/AdminDashboard.jsx:55-63 | product count, quantity sum, count of rows below minimum, category count; 0 for a missing list |
| AdminDashboard.CategoryCountsSum | src/pages/dashboards/AdminDashboard.jsx:95-106 | each category counts its products; the categories are those of the products, once each; the counts add up to the number of products |
| AdminDashboard.CategoryChart | src/pages/dashboards/AdminDashboard.jsx:95-113 | all category counts when there are products, the placeholder otherwise |
| AdminDashboard.RecentActivities | src/pages/dashboards/AdminDashboard.jsx:116-125 | the first at most three movements, in order, named "Product #" and id |
| AdminDashboard.ActivityLabel | src/pages/dashboards/AdminDashboard.jsx:250-254 | IN iff Stock Added, OUT iff Stock Removed, anything else iff Stock Adjusted |
| AdminDashboard.ActivityLine | src/pages/dashboards/AdminDashboard.jsx:250-255 | the line is "<label>: <product> (<quantity without sign> units)", so it begins with the label and ends " units)" |
| AdminDashboard.QuantityShownUnsigned | src/pages/dashboards/AdminDashboard.jsx:255 | -n units reads exactly like n units |
| SupplierDashboard.OrdersOf | src/pages/dashboards/SupplierDashboard.jsx:49 | the fetched list, or empty |
| SupplierDashboard.StatsOf | src/pages/dashboards/SupplierDashboard.jsx:52-64 | total is the length; pending, completed and cancelled count exact status matches |
| SupplierDashboard.StatusCountsBounded | src/pages/dashboards/SupplierDashboard.jsx:52-54 | pending + completed + cancelled is at most the total |
| SupplierDashboard.StatusPie | src/pages/dashboards/SupplierDashboard.jsx:94-98 | three slices, Completed, Pending, Cancelled, carrying those counts |
| SupplierDashboard.RevenueOrders | src/pages/dashboards/SupplierDashboard.jsx:55-57 | exactly the completed orders, as many as the completed counter |
| SupplierDashboard.QuantityShown | src/pages/dashboards/SupplierDashboard.jsx:105 | the quantity, or 0 when missing |
| SupplierDashboard.RecentOrders | src/pages/dashboards/SupplierDashboard.jsx:101-109 | the first at most three orders, labelled "PO-id" and "Order #id", with their quantity and status |
| SupplierDashboard.RecentLabelsIdentifyOrders | src/pages/dashboards/SupplierDashboard.jsx:103 | distinct ids give distinct "PO-" labels |
| Text.ParseDecimal | src/pages/suppliers/PurchaseRequests.jsx:78 | parseInt reads back the decimal rendering of every integer |
| Text.ParseFloatDecimal | src/pages/orders/OrderCreate.jsx:41-42 | parseFloat reads back the decimal rendering of every integer, and reads "" as NaN |

## Left out

- Network, storage and the identity-provider SDK. Fetched data, the groups of the signed-in
  user, environment variables and the current date are parameters. Token decoding, axios
  interceptors, `Promise.all`, toasts and loading flags are not modelled.
- Money in floating point: inventory value, supplier revenue (`Math.round`), and `toFixed(2)`
  on the order total. The total is kept as an exact real.
- `Text.ParseFloat` reads only a sign, digits and one decimal point: no exponents, no
  `Infinity`. Arithmetic on the parsed values is exact.
- `Text.ParseInt` is `parseInt` with radix 10. Most call sites pass no radix, and there
  JavaScript also reads a "0x"/"0X" prefix as hexadecimal ("0x1A" is 26, the model gives 0).
  The inputs feeding those calls are number fields and select values, which never hold such a
  prefix.
- `Text.ToLower` folds only ASCII letters; the search and group matching of non-ASCII names
  may differ.
- Lookups in an object literal indexed by a status string (badge variants, state colours, the
  dashboard table) treat inherited keys such as "constructor" as unknown. JavaScript would
  find a function there.
- `Buckets`: `Object.entries` is taken to list keys in insertion order. JavaScript lists
  integer-like keys first, in numeric order, so a category named "12" would move.
- InventoryDashboard.Status: the 0.9 overstock factor is exact nine tenths (`10·a ≥ 9·m`),
  without floating-point rounding.
- Date and locale logic: today's movements, the monthly movement and order charts.
- Array aliasing in `handleItemChange` and `updateBundleItem`, which write into the old row
  object after a shallow copy. The model replaces rows by value.
- PricingCalculator: the as-written requests are modelled by path and body, relative to the
  page's client. That client is built from a `SERVICES` export that src/utils/constants.js
  does not define; the consequence is under "## Findings". The as-written paths
  "/api/pricing/..." are not among the `API` builders' paths, which put pricing under
  "/api/product/"; the intended requests use those builders. The axios client's joining of
  base and path is not modelled.
  The bundle quantity starts as the number 1, modelled as the text "1"; `parseInt` reads both
  the same.
- Purchase-order rating, the edit prefill and the create/update payload. The rating flow calls
  a supplier-service function that does not exist.
- The add-product form has no input for `category_id`. The model keeps its handling in the
  payload.
- Router path matching (`/orders/:id` against a concrete path): routes are looked up by their
  pattern.
- Rendering: layouts, tables, buttons, icons and the remaining CRUD pages (categories, low-stock
  alerts, staff, suppliers, ratings, health).
- The rule tables that live on the server: the lifecycle engine, pricing rules and stock
  booking. The front end only posts to their endpoints.
- ProductLifecycle.ActionLabel and ProductLifecycle.StateLabel: the captions' space
  substitution is stated only as length and character facts.
- Auth.MyAccountUrl and Auth.UserManagementUrl carry no contract of their own. They are the
  fixed host followed by `Auth.OrgName`, and that is where the proof is.

## Findings

| source | as written | input that shows it | evidently intended | confidence | as-written member | corrected member |
|---|---|---|---|---|---|---|
| src/pages/orders/OrderCreate.jsx:61-66 | removing an item row leaves `total_amount` as last computed | complete rows (qty 2, price 5) and (qty 1, price 3) with customer 7; the total field reads 13; remove the first row and submit: the remaining row totals 3, and total_amount 13 is sent | removal recomputes the total as an item edit does | not executed | OrderCreate.OrderForm.RemoveItem, OrderCreate.StaleTotalAfterRemoval | OrderCreate.OrderForm.RemoveItemRetotalled |
| src/components/auth/ProtectedRoute.jsx:20-22 | every role mismatch redirects to /products, whose own guard (src/App.jsx:104-111) admits only admin and warehouse_staff | a user whose groups name only "supplier" opens /orders: sent to /products, and /products sends them to /products again, so no page ever renders | a turned-away user is sent somewhere that opens for them, such as their own landing page | not executed | AppRoutes.SupplierSentInCircles | ProtectedRoute.GuardToLanding, AppRoutes.TurnedAwayUserLands |
| src/pages/products/PricingCalculator.jsx:9-11 | imports `SERVICES` from src/utils/constants.js, which exports only `API` (line 40), and reads `SERVICES.PRODUCT` at module load; src/App.jsx:26 imports the page statically (src/pages/inventory/LowStockAlerts.jsx:10-12 does the same) | loading the application: the import cannot be bound, so the page module, and with it the route table, does not load | the page imports the exported `API` and posts to `API.product.calculatePrice()` and `API.product.calculateBundle()` (src/utils/constants.js:58-59), that is to "/api/product/pricing/..." under the gateway | not executed | PricingCalculator.PageFailsToLoad, PricingCalculator.LoadModule | PricingCalculator.IntendedPriceRequest, PricingCalculator.IntendedBundleRequest, PricingCalculator.IntendedPageLoads |

=== FILE: admin_dashboard.dfy ===
/** The admin dashboard (src/pages/dashboards/AdminDashboard.jsx): the four counters, the
    products-per-category chart and the recent-activity list. A `.data` field that the response
    lacks is `None`. */
module AdminDashboard {
  import opened Common
  import opened Text
  import opened Seqs
  import opened Buckets
  import opened StockRecords

  datatype Stats = Stats(totalProducts: nat, totalInventory: int, lowStockItems: nat, activeCategories: nat)

  /** Each counter reads its list, or is 0 when the list is missing. */
  function StatsOf(products: Option<seq<Product>>, inventory: Option<seq<InventoryRow>>,
                   categories: Option<seq<string>>): (st: Stats)
    ensures st.totalProducts == if products.Some? then |products.value| else 0
    ensures st.activeCategories == if categories.Some? then |categories.value| else 0
    ensures inventory.Some? ==> st.totalInventory == TotalQuantity(inventory.value)
    ensures inventory.Some? ==> st.lowStockItems == Count(IsLow, inventory.value) <= |inventory.value|
    ensures inventory.None? ==> st.totalInventory == 0 && st.lowStockItems == 0
  {
    Stats(if products.Some? then |products.value| else 0,
          if inventory.Some? then TotalQuantity(inventory.value) else 0,
          if inventory.Some? then Count(IsLow, inventory.value) else 0,
          if categories.Some? then |categories.value| else 0)
  }

  /** The chart shown while there are no products. */
  const PLACEHOLDER_CATEGORIES := [Entry("Electronics", 12), Entry("Clothing", 8), Entry("Food", 15)]

  function One(p: Product): int { 1 }

  /** The number of products of each category, in first-seen category order. */
  function CategoryCounts(products: seq<Product>): seq<Entry>
  {
    Tally(CategoryOf, One, products)
  }

  /** Each category counts its products, every category appears once, and the counts add up
      to the number of products. */
  lemma CategoryCountsSum(products: seq<Product>, k: string)
    ensures Distinct(CategoryCounts(products))
    ensures Lookup(CategoryCounts(products), k) == Count((p: Product) => CategoryOf(p) == k, products)
    ensures Has(CategoryCounts(products), k) <==> exists i :: 0 <= i < |products| && CategoryOf(products[i]) == k
    ensures Total(CategoryCounts(products)) == |products|
  {
    var share := (p: Product) => if CategoryOf(p) == k then 1 else 0;
    TallyLookup(CategoryOf, One, products, k, share);
    SumCount(share, (p: Product) => CategoryOf(p) == k, products);
    TallyKeys(CategoryOf, One, products, k);
    TallyTotal(CategoryOf, One, products);
    SumOnes(One, products);
  }

  /** The category chart: every category (no cut-off), or the placeholder data. */
  method CategoryChart(products: Option<seq<Product>>) returns (chart: seq<Entry>)
    ensures products.Some? && |products.value| > 0 ==> chart == CategoryCounts(products.value)
    ensures !(products.Some? && |products.value| > 0) ==> chart == PLACEHOLDER_CATEGORIES
  {
    if products.Some? && |products.value| > 0 {
      chart := Group(CategoryOf, One, products.value);
    } else {
      chart := PLACEHOLDER_CATEGORIES;
    }
  }

  datatype Activity = Activity(kind: string, product: string, quantity: int)

  /** The recent activities: the first three movements, each named by its product id; empty
      when there are none. */
  function RecentActivities(movements: Option<seq<Movement>>): (r: seq<Activity>)
    ensures |r| <= 3
    ensures movements.None? ==> r == []
    ensures movements.Some? ==> |r| == if |movements.value| < 3 then |movements.value| else 3
    ensures movements.Some? ==> forall i :: 0 <= i < |r| ==>
              r[i] == Activity(movements.value[i].movementType, Placeholder(movements.value[i].productId),
                               movements.value[i].quantity)
  {
    if movements.Some? && |movements.value| > 0 then
      Map((m: Movement) => Activity(m.movementType, Placeholder(m.productId), m.quantity), Take(movements.value, 3))
    else []
  }

  /** IN is "Stock Added", OUT is "Stock Removed", any other type is "Stock Adjusted". */
  function ActivityLabel(kind: string): (caption: string)
    ensures kind == "IN" <==> caption == "Stock Added"
    ensures kind == "OUT" <==> caption == "Stock Removed"
    ensures kind != "IN" && kind != "OUT" <==> caption == "Stock Adjusted"
  {
    if kind == "IN" then "Stock Added" else if kind == "OUT" then "Stock Removed" else "Stock Adjusted"
  }

  /** The activity line: label, product and the quantity without sign, as
      "<label>: <product> (<|quantity|> units)". */
  function ActivityLine(a: Activity): (line: string)
    ensures line == ActivityLabel(a.kind) + ": " + a.product + " (" + Decimal(Abs(a.quantity)) + " units)"
    ensures |line| > |ActivityLabel(a.kind)| && line[..|ActivityLabel(a.kind)|] == ActivityLabel(a.kind)
    ensures |line| >= 7 && line[|line| - 7..] == " units)"
  {
    var head := ActivityLabel(a.kind);
    var text := head + ": " + a.product + " (" + Decimal(Abs(a.quantity)) + " units)";
    assert text[..|head|] == head;
    text
  }

  /** A movement of -n units reads exactly like one of n units. */
  lemma QuantityShownUnsigned(kind: string, p: string, n: int)
    ensures ActivityLine(Activity(kind, p, -n)) == ActivityLine(Activity(kind, p, n))
  {
    assert Abs(-n) == Abs(n);
  }
}

=== FILE: app_routes.dfy ===
/** The route table: the public pages and the pages inside the signed-in layout, each
    behind a role guard. */
module AppRoutes {
  import opened Common
  import opened Auth
  import opened ProtectedRoute
  import opened Sidebar

  /** A page route inside the signed-in layout and the roles its guard admits. */
  datatype Route = Route(pattern: string, page: string, allowedRoles: seq<string>)

  const AW: seq<string> := [ADMIN, WAREHOUSE_STAFF]

  /** The layout's page routes, looked up by their path pattern. */
  function LayoutRoute(pattern: string): (r: Option<Route>)
    ensures r.Some? ==> r.value.pattern == pattern && r.value.allowedRoles != []
  {
    if pattern == "/dashboard/admin" then Some(Route(pattern, "AdminDashboard", [ADMIN]))
    else if pattern == "/dashboard/warehouse" then Some(Route(pattern, "WarehouseDashboard", AW))
    else if pattern == "/dashboard/supplier" then Some(Route(pattern, "SupplierDashboard", [ADMIN, SUPPLIER]))
    else if pattern == "/products" then Some(Route(pattern, "ProductList", AW))
    else if pattern == "/products/add" then Some(Route(pattern, "ProductAdd", AW))
    else if pattern == "/products/edit/:id" then Some(Route(pattern, "ProductEdit", AW))
    else if pattern == "/products/lifecycle" then Some(Route(pattern, "ProductLifecycle", [ADMIN]))
    else if pattern == "/products/pricing" then Some(Route(pattern, "PricingCalculator", AW))
    else if pattern == "/categories" then Some(Route(pattern, "CategoryList", AW))
    else if pattern == "/inventory" then Some(Route(pattern, "InventoryDashboard", AW))
    else if pattern == "/inventory/movements" then Some(Route(pattern, "StockMovements", AW))
    else if pattern == "/inventory/adjust" then Some(Route(pattern, "StockAdjustment", AW))
    else if pattern == "/inventory/alerts" then Some(Route(pattern, "LowStockAlerts", AW))
    else if pattern == "/suppliers" then Some(Route(pattern, "SupplierList", [ADMIN]))
    else if pattern == "/purchase-orders" then Some(Route(pattern, "PurchaseOrders", AW))
    else if pattern == "/purchase-requests" then Some(Route(pattern, "PurchaseRequests", [SUPPLIER]))
    else if pattern == "/staff" then Some(Route(pattern, "StaffList", [ADMIN]))
    else if pattern == "/orders" then Some(Route(pattern, "OrderList", AW))
    else if pattern == "/orders/create" then Some(Route(pattern, "OrderCreate", AW))
    else if pattern == "/orders/:id" then Some(Route(pattern, "OrderDetails", AW))
    else if pattern == "/health" then Some(Route(pattern, "HealthMonitoring", [ADMIN]))
    else None
  }

  /** What the router shows for a route pattern. */
  datatype Screen = Waiting | SentTo(path: string) | Rendered(page: string)

  function OfOutcome(o: Outcome, page: string): Screen
  {
    match o
    case Spinner => Waiting
    case Redirect(to) => SentTo(to)
    case RenderChildren => Rendered(page)
  }

  /** "/login" and "/" are public; a layout route passes the layout's guard (signed in) and
      then its own role guard; anything else is the not-found page. */
  function Resolve(pattern: string, loading: bool, user: Option<User>): (s: Screen)
    ensures pattern == "/login" ==> s == Rendered("Login")
    ensures pattern == "/" ==> s == Rendered("RootRedirect")
    ensures LayoutRoute(pattern).None? && pattern != "/login" && pattern != "/" ==>
              s == Rendered("NotFound")
  {
    if pattern == "/login" then Rendered("Login")
    else if pattern == "/" then Rendered("RootRedirect")
    else match LayoutRoute(pattern)
      case Some(r) => OfOutcome(Nested(loading, user, Some(r.allowedRoles)), r.page)
      case None => Rendered("NotFound")
  }

  /** Inside the layout, a signed-out visitor always lands on the sign-in page. */
  lemma {:induction false} LayoutNeedsSignIn(pattern: string)
    requires LayoutRoute(pattern).Some?
    ensures Resolve(pattern, false, None) == SentTo("/login")
    ensures Resolve(pattern, true, None) == Waiting
  {
    var r := LayoutRoute(pattern).value;
    OuterGuardAddsNothing(false, None, Some(r.allowedRoles));
    OuterGuardAddsNothing(true, None, Some(r.allowedRoles));
  }

  /** A signed-in user sees a layout page exactly when one of its roles is theirs, and is
      otherwise sent to the product list. */
  lemma {:induction false} LayoutAccess(pattern: string, u: User)
    requires LayoutRoute(pattern).Some?
    ensures var r := LayoutRoute(pattern).value;
            Resolve(pattern, false, Some(u)) ==
              if exists role :: role in r.allowedRoles && role in u.roles then Rendered(r.page)
              else SentTo("/products")
  {
    var r := LayoutRoute(pattern).value;
    OuterGuardAddsNothing(false, Some(u), Some(r.allowedRoles));
  }

  /** As written, a supplier-only user turned away from a warehouse page is sent to the
      product list, whose own guard sends them to the product list again. */
  lemma {:induction false} SupplierSentInCircles()
    ensures WellFormed(User(SUPPLIER, [SUPPLIER]))
    ensures Resolve("/orders", false, Some(User(SUPPLIER, [SUPPLIER]))) == SentTo("/products")
    ensures Resolve("/products", false, Some(User(SUPPLIER, [SUPPLIER]))) == SentTo("/products")
  {
    var u := User(SUPPLIER, [SUPPLIER]);
    LayoutAccess("/orders", u);
    LayoutAccess("/products", u);
  }

  /** The route table behind the evidently intended guard. */
  function ResolveToLanding(pattern: string, loading: bool, user: Option<User>): (s: Screen)
    ensures s.Rendered? <==> Resolve(pattern, loading, user).Rendered?
  {
    if pattern == "/login" then Rendered("Login")
    else if pattern == "/" then Rendered("RootRedirect")
    else match LayoutRoute(pattern)
      case Some(r) =>
        OuterGuardAddsNothing(loading, user, Some(r.allowedRoles));
        OfOutcome(GuardToLanding(loading, user, Some(r.allowedRoles)), r.page)
      case None => Rendered("NotFound")
  }

  /** With the intended guard, a user built by the role mapping who is turned away from a
      page lands on a page that opens for them, so no redirect leads to another one. */
  lemma {:induction false} TurnedAwayUserLands(pattern: string, u: User)
    requires LayoutRoute(pattern).Some? && WellFormed(u)
    ensures ResolveToLanding(pattern, false, Some(u)).SentTo? ==>
              ResolveToLanding(ResolveToLanding(pattern, false, Some(u)).path, false, Some(u)).Rendered?
  {
    var s := ResolveToLanding(pattern, false, Some(u));
    if s.SentTo? {
      var r := LayoutRoute(pattern).value;
      assert s.path == DashboardFor(u.role);
      WellFormedLandsOnDashboard(u);
      assert IsRoleName(u.role);
      LayoutAccess(s.path, u);
    }
  }

  /** The admin dashboard, product lifecycle, suppliers, staff and health pages open for
      admins only. */
  lemma {:induction false} AdminOnlyPages(pattern: string, u: User)
    requires pattern in {"/dashboard/admin", "/products/lifecycle", "/suppliers", "/staff", "/health"}
    ensures Resolve(pattern, false, Some(u)).Rendered? <==> ADMIN in u.roles
  {
    var r := LayoutRoute(pattern);
    assert r.Some? && r.value.allowedRoles == [ADMIN];
    LayoutAccess(pattern, u);
  }

  /** The warehouse dashboard opens for admins and warehouse staff, the supplier dashboard
      for admins and suppliers. */
  lemma {:induction false} DashboardAccess(u: User)
    ensures Resolve("/dashboard/warehouse", false, Some(u)).Rendered? <==>
              ADMIN in u.roles || WAREHOUSE_STAFF in u.roles
    ensures Resolve("/dashboard/supplier", false, Some(u)).Rendered? <==>
              ADMIN in u.roles || SUPPLIER in u.roles
  {
    var w := LayoutRoute("/dashboard/warehouse");
    assert w.Some? && w.value.allowedRoles == [ADMIN, WAREHOUSE_STAFF];
    LayoutAccess("/dashboard/warehouse", u);
    var s := LayoutRoute("/dashboard/supplier");
    assert s.Some? && s.value.allowedRoles == [ADMIN, SUPPLIER];
    LayoutAccess("/dashboard/supplier", u);
  }

  /** Purchase requests open for suppliers only: an admin without the supplier role is
      sent to the product list. */
  lemma {:induction false} PurchaseRequestsNeedSupplier(u: User)
    ensures Resolve("/purchase-requests", false, Some(u)).Rendered? <==> SUPPLIER in u.roles
    ensures SUPPLIER !in u.roles ==> Resolve("/purchase-requests", false, Some(u)) == SentTo("/products")
  {
    var r := LayoutRoute("/purchase-requests");
    assert r.Some? && r.value.allowedRoles == [SUPPLIER];
    LayoutAccess("/purchase-requests", u);
  }

  /** Every menu entry after the dashboard leads to a layout route guarded by exactly the
      entry's roles. */
  lemma {:induction false} MenuMatchesRoutes(user: Option<User>, i: int)
    requires 1 <= i < |Menu(user)|
    ensures LayoutRoute(Menu(user)[i].path).Some?
    ensures LayoutRoute(Menu(user)[i].path).value.allowedRoles == Menu(user)[i].roles
  {
    if i <= 6 {
      ProductAndStockEntries(user, i);
    } else {
      AdministrationEntries(user, i);
    }
  }

  /** The product and stock entries of the menu. */
  lemma {:induction false} ProductAndStockEntries(user: Option<User>, i: int)
    requires 1 <= i <= 6
    ensures LayoutRoute(Menu(user)[i].path).Some?
    ensures LayoutRoute(Menu(user)[i].path).value.allowedRoles == Menu(user)[i].roles
  {
    var m := Menu(user);
    if i == 1 { assert m[1].path == "/products"; }
    else if i == 2 { assert m[2].path == "/products/lifecycle"; }
    else if i == 3 { assert m[3].path == "/products/pricing"; }
    else if i == 4 { assert m[4].path == "/categories"; }
    else if i == 5 { assert m[5].path == "/inventory"; }
    else { assert m[6].path == "/inventory/alerts"; }
  }

  /** The supplier, staff, purchasing, order and health entries of the menu. */
  lemma {:induction false} AdministrationEntries(user: Option<User>, i: int)
    requires 7 <= i < |Menu(user)|
    ensures LayoutRoute(Menu(user)[i].path).Some?
    ensures LayoutRoute(Menu(user)[i].path).value.allowedRoles == Menu(user)[i].roles
  {
    var m := Menu(user);
    if i == 7 { assert m[7].path == "/suppliers"; }
    else if i == 8 { assert m[8].path == "/staff"; }
    else if i == 9 { assert m[9].path == "/purchase-orders"; }
    else if i == 10 { assert m[10].path == "/purchase-requests"; }
    else if i == 11 { assert m[11].path == "/orders"; }
    else { assert m[12].path == "/health"; }
  }

  /** The dashboard entry, when shown, opens its dashboard. */
  lemma {:induction false} DashboardEntryOpens(user: Option<User>)
    requires Shows(user, Menu(user)[0])
    ensures Resolve(Menu(user)[0].path, false, user).Rendered?
  {
    var p := DashboardPath(user);
    assert Menu(user)[0].path == p;
    assert LayoutRoute(p).Some?;
    LayoutAccess(p, user.value);
  }

  /** Any other entry, when shown, opens its page. */
  lemma {:induction false} EntryOpens(user: Option<User>, i: int)
    requires 1 <= i < |Menu(user)| && Shows(user, Menu(user)[i])
    ensures Resolve(Menu(user)[i].path, false, user).Rendered?
  {
    MenuMatchesRoutes(user, i);
    LayoutAccess(Menu(user)[i].path, user.value);
  }

  /** Every entry the menu shows opens its page for that user: the menu never offers a
      page whose guard would send the user away. */
  lemma {:induction false} ShownEntriesOpen(user: Option<User>, it: MenuItem)
    requires it in VisibleItems(user)
    ensures Resolve(it.path, false, user).Rendered?
  {
    var m := Menu(user);
    var i :| 0 <= i < |m| && m[i] == it;
    if i == 0 {
      DashboardEntryOpens(user);
    } else {
      EntryOpens(user, i);
    }
  }
}

=== FILE: auth.dfy ===
/** The role logic of src/context/AsgardeoAuthContext.jsx: mapping identity-provider groups to
    application roles, `hasRole`, the post-login landing page with its once-per-session flag,
    and the organisation name taken from the identity-provider base URL. Token decoding and the
    provider SDK calls are outside the model: the groups arrive as a parameter. */
module Auth {
  import opened Common
  import opened Text

  datatype Role = Admin | WarehouseStaff | Supplier

  function RoleName(r: Role): string
  {
    match r
    case Admin => "admin"
    case WarehouseStaff => "warehouse_staff"
    case Supplier => "supplier"
  }

  const ADMIN := "admin"
  const WAREHOUSE_STAFF := "warehouse_staff"
  const SUPPLIER := "supplier"

  /** The signed-in user as the provider exposes it: the primary role and the list of all roles,
      both as strings, exactly as the pages compare them. */
  datatype User = User(role: string, roles: seq<string>)

  /** Case-insensitive substring match of one group name against the words that grant a role. */
  predicate Grants(group: string, r: Role)
  {
    var g := ToLower(group);
    match r
    case Admin => Contains(g, "admin")
    case WarehouseStaff => Contains(g, "warehouse") || Contains(g, "staff")
    case Supplier => Contains(g, "supplier")
  }

  /** `groupsLower.some(...)` for the words of role `r`. */
  predicate Granted(groups: seq<string>, r: Role)
  {
    exists i | 0 <= i < |groups| :: Grants(groups[i], r)
  }

  /** The primary role: admin, then warehouse_staff, then supplier, then warehouse_staff by default. */
  function PrimaryOf(roles: seq<string>): (p: string)
    ensures ADMIN in roles ==> p == ADMIN
    ensures ADMIN !in roles && WAREHOUSE_STAFF in roles ==> p == WAREHOUSE_STAFF
    ensures ADMIN !in roles && WAREHOUSE_STAFF !in roles && SUPPLIER in roles ==> p == SUPPLIER
    ensures ADMIN !in roles && WAREHOUSE_STAFF !in roles && SUPPLIER !in roles ==> p == WAREHOUSE_STAFF
  {
    if ADMIN in roles then ADMIN
    else if WAREHOUSE_STAFF in roles then WAREHOUSE_STAFF
    else if SUPPLIER in roles then SUPPLIER
    else WAREHOUSE_STAFF
  }

  /** Position of a role name in the fixed order admin, warehouse_staff, supplier. */
  function Rank(name: string): nat
  {
    if name == ADMIN then 0 else if name == WAREHOUSE_STAFF then 1 else 2
  }

  predicate IsRoleName(name: string)
  {
    name == ADMIN || name == WAREHOUSE_STAFF || name == SUPPLIER
  }

  /** What every user built by the provider satisfies: a non-empty list of known role names,
      without duplicates, in the fixed order, whose primary role follows the precedence. */
  predicate WellFormed(u: User)
  {
    && |u.roles| > 0
    && (forall i :: 0 <= i < |u.roles| ==> IsRoleName(u.roles[i]))
    && (forall i, j :: 0 <= i < j < |u.roles| ==> Rank(u.roles[i]) < Rank(u.roles[j]))
    && u.role == PrimaryOf(u.roles)
  }

  /** `mapGroupsToRoles(groups)`: pushes each granted role in the fixed order and falls back to
      ["warehouse_staff"] when no group matches. */
  method MapGroupsToRoles(groups: seq<string>) returns (primaryRole: string, roles: seq<string>)
    ensures ADMIN in roles <==> Granted(groups, Admin)
    ensures SUPPLIER in roles <==> Granted(groups, Supplier)
    ensures WAREHOUSE_STAFF in roles <==>
              Granted(groups, WarehouseStaff) || (!Granted(groups, Admin) && !Granted(groups, Supplier))
    ensures WellFormed(User(primaryRole, roles))
    ensures primaryRole in roles
    ensures primaryRole == ADMIN <==> ADMIN in roles
  {
    var admin, staff, supplier := Granted(groups, Admin), Granted(groups, WarehouseStaff), Granted(groups, Supplier);
    assert Rank(ADMIN) == 0 && Rank(WAREHOUSE_STAFF) == 1 && Rank(SUPPLIER) == 2;
    var pushed: seq<string> := [];
    if admin { pushed := pushed + [ADMIN]; }
    if staff { pushed := pushed + [WAREHOUSE_STAFF]; }
    if supplier { pushed := pushed + [SUPPLIER]; }
    primaryRole := PrimaryOf(pushed);
    roles := if |pushed| > 0 then pushed else [primaryRole];
  }

  /** The roles argument of `hasRole`: a single role or an array of roles. */
  datatype Allowed = OneRole(name: string) | AnyOf(names: seq<string>)

  function AllowedList(a: Allowed): seq<string>
  {
    match a
    case OneRole(r) => [r]
    case AnyOf(rs) => rs
  }

  /** Some element of `wanted` is in `held` (`wanted.some(r => held.includes(r))`). */
  predicate Intersects(wanted: seq<string>, held: seq<string>)
  {
    exists i | 0 <= i < |wanted| :: wanted[i] in held
  }

  /** `hasRole(allowedRoles)`: false with no user; otherwise true iff some allowed role is among the user's roles. */
  function HasRole(user: Option<User>, allowed: Allowed): (b: bool)
    ensures user.None? ==> !b
    ensures allowed.OneRole? ==> (b <==> user.Some? && allowed.name in user.value.roles)
    ensures allowed.AnyOf? ==> (b <==> user.Some? && exists r :: r in allowed.names && r in user.value.roles)
  {
    assert allowed.OneRole? ==> AllowedList(allowed)[0] == allowed.name;
    user.Some? && Intersects(AllowedList(allowed), user.value.roles)
  }

  /** The role -> landing page table used after sign-in (also in the login page). */
  function DashboardFor(role: string): (path: string)
    ensures role == ADMIN ==> path == "/dashboard/admin"
    ensures role == WAREHOUSE_STAFF ==> path == "/dashboard/warehouse"
    ensures role == SUPPLIER ==> path == "/dashboard/supplier"
    ensures !IsRoleName(role) ==> path == "/products"
  {
    if role == ADMIN then "/dashboard/admin"
    else if role == WAREHOUSE_STAFF then "/dashboard/warehouse"
    else if role == SUPPLIER then "/dashboard/supplier"
    else "/products"
  }

  /** A user built by the provider always lands on a dashboard, never on the "/products" fallback. */
  lemma WellFormedLandsOnDashboard(u: User)
    requires WellFormed(u)
    ensures DashboardFor(u.role) != "/products"
    ensures u.role in u.roles
  {
    assert IsRoleName(u.roles[0]) && u.roles[0] in u.roles;
  }

  /** The `has_navigated` session-storage flag and the post-login navigation it guards. */
  class Session {
    var hasNavigated: bool

    constructor ()
      ensures !hasNavigated
    {
      hasNavigated := false;
    }

    /** The post-login effect: navigates to the user's landing page only when a user is loaded,
        loading is over and the flag is absent; navigating sets the flag. */
    method PostLogin(user: Option<User>, loading: bool) returns (target: Option<string>)
      modifies this
      ensures target.Some? <==> user.Some? && !loading && !old(hasNavigated)
      ensures target.Some? ==> target.value == DashboardFor(user.value.role)
      ensures hasNavigated == (old(hasNavigated) || target.Some?)
    {
      if user.Some? && !loading && !hasNavigated {
        target := Some(DashboardFor(user.value.role));
        hasNavigated := true;
      } else {
        target := None;
      }
    }

    /** `logout`: clears the flag (the provider's sign-out that follows is outside the model). */
    method Logout()
      modifies this
      ensures !hasNavigated
    {
      hasNavigated := false;
    }
  }

  const DEFAULT_BASE_URL := "https://api.asgardeo.io/t/kubestock"

  /** The base URL in effect: the environment value unless it is missing or empty. */
  function BaseUrl(env: Option<string>): (url: string)
    ensures env.Some? && env.value != "" ==> url == env.value
    ensures !(env.Some? && env.value != "") ==> url == DEFAULT_BASE_URL
  {
    if env.Some? && env.value != "" then env.value else DEFAULT_BASE_URL
  }

  /** The organisation segment interpolated into the account-page URLs: `baseUrl.split("/t/")[1]`,
      which JavaScript prints as "undefined" when the base URL has no "/t/". */
  function OrgName(env: Option<string>): (org: string)
    ensures !Contains(BaseUrl(env), "/t/") ==> org == "undefined"
    ensures Contains(BaseUrl(env), "/t/") ==> Some(org) == SecondPiece(BaseUrl(env), "/t/")
  {
    match SecondPiece(BaseUrl(env), "/t/")
    case Some(o) => o
    case None => "undefined"
  }

  /** A tenant URL "<host>/t/<org>" with a single "/t/" names organisation <org>. */
  lemma OrgNameOfTenantUrl(host: string, org: string)
    requires forall j :: OccursAt(host + "/t/" + org, "/t/", j) ==> j == |host|
    ensures OrgName(Some(host + "/t/" + org)) == org
  {
    SecondPieceOfSingle(host, "/t/", org);
  }

  /** `openMyAccount`'s target. */
  function MyAccountUrl(env: Option<string>): string
  {
    "https://myaccount.asgardeo.io/t/" + OrgName(env)
  }

  /** `openUserManagement`'s target. */
  function UserManagementUrl(env: Option<string>): string
  {
    "https://console.asgardeo.io/t/" + OrgName(env) + "/users"
  }
}

=== FILE: buckets.dfy ===
/** A JavaScript object used as a tally, `acc[key] = (acc[key] || 0) + value`, read back with
    `Object.entries`: entries in the order their key was first added. */
module Buckets {
  import opened Seqs

  datatype Entry = Entry(name: string, value: int)

  /** No key appears twice. */
  predicate Distinct(b: seq<Entry>)
  {
    forall i, j :: 0 <= i < j < |b| ==> b[i].name != b[j].name
  }

  predicate Has(b: seq<Entry>, k: string)
  {
    exists i :: 0 <= i < |b| && b[i].name == k
  }

  /** `acc[k] || 0`. */
  function Lookup(b: seq<Entry>, k: string): int
    decreases |b|
  {
    if b == [] then 0 else if b[0].name == k then b[0].value else Lookup(b[1..], k)
  }

  /** The sum of all entries. */
  function Total(b: seq<Entry>): int
    decreases |b|
  {
    if b == [] then 0 else b[0].value + Total(b[1..])
  }

  /** `acc[k] = (acc[k] || 0) + v`: the key's entry grows by `v` and every other key keeps its
      value. */
  function Add(b: seq<Entry>, k: string, v: int): (r: seq<Entry>)
    ensures Lookup(r, k) == Lookup(b, k) + v
    ensures forall k' :: k' != k ==> Lookup(r, k') == Lookup(b, k')
    ensures Total(r) == Total(b) + v
    decreases |b|
  {
    if b == [] then [Entry(k, v)]
    else if b[0].name == k then [Entry(k, b[0].value + v)] + b[1..]
    else [b[0]] + Add(b[1..], k, v)
  }

  /** An existing key keeps its place (every name stays where it was) and a new key goes last. */
  lemma {:induction false} AddPlacement(b: seq<Entry>, k: string, v: int)
    ensures Has(b, k) ==> |Add(b, k, v)| == |b| &&
                          forall i :: 0 <= i < |b| ==> Add(b, k, v)[i].name == b[i].name
    ensures !Has(b, k) ==> Add(b, k, v) == b + [Entry(k, v)]
    decreases |b|
  {
    if b != [] && b[0].name != k {
      var r := Add(b, k, v);
      AddPlacement(b[1..], k, v);
      assert forall i :: 0 < i < |r| ==> r[i] == Add(b[1..], k, v)[i - 1];
      if Has(b, k) {
        var i :| 0 <= i < |b| && b[i].name == k;
        assert b[1..][i - 1] == b[i];
        assert forall i :: 0 < i < |b| ==> b[i] == b[1..][i - 1];
      } else {
        assert b == [b[0]] + b[1..];
      }
    }
  }

  /** The keys after adding are the keys before plus `k`, still without repeats. */
  lemma AddKeys(b: seq<Entry>, k: string, v: int)
    ensures forall k' :: Has(Add(b, k, v), k') <==> Has(b, k') || k' == k
    ensures Distinct(b) ==> Distinct(Add(b, k, v))
  {
    AddPlacement(b, k, v);
    var r := Add(b, k, v);
    if !Has(b, k) {
      assert r[|b|].name == k;
      assert forall i :: 0 <= i < |b| ==> r[i] == b[i];
    } else {
      var i :| 0 <= i < |b| && b[i].name == k;
      assert r[i].name == k;
    }
  }

  /** What the `forEach` loop leaves behind: every item added in turn. */
  function Tally<T>(key: T -> string, val: T -> int, xs: seq<T>): (r: seq<Entry>)
    ensures Distinct(r)
    ensures |r| <= |xs|
    decreases |xs|
  {
    if xs == [] then []
    else
      var last := xs[|xs| - 1];
      var before := Tally(key, val, xs[..|xs| - 1]);
      AddKeys(before, key(last), val(last));
      AddPlacement(before, key(last), val(last));
      Add(before, key(last), val(last))
  }

  /** The entries add up to the sum of all values. */
  lemma {:induction false} TallyTotal<T>(key: T -> string, val: T -> int, xs: seq<T>)
    ensures Total(Tally(key, val, xs)) == Sum(val, xs)
    decreases |xs|
  {
    if xs != [] {
      TallyTotal(key, val, xs[..|xs| - 1]);
    }
  }

  /** Each key holds the sum of the values of the items with that key (`share` is the value of
      an item counted towards `k`: its value when its key is `k`, and 0 otherwise). */
  lemma {:induction false} TallyLookup<T>(key: T -> string, val: T -> int, xs: seq<T>, k: string, share: T -> int)
    requires forall i :: 0 <= i < |xs| ==> share(xs[i]) == if key(xs[i]) == k then val(xs[i]) else 0
    ensures Lookup(Tally(key, val, xs), k) == Sum(share, xs)
    decreases |xs|
  {
    if xs != [] {
      TallyLookup(key, val, xs[..|xs| - 1], k, share);
    }
  }

  /** The keys are exactly the keys of the items. */
  lemma {:induction false} TallyKeys<T>(key: T -> string, val: T -> int, xs: seq<T>, k: string)
    ensures Has(Tally(key, val, xs), k) <==> exists i :: 0 <= i < |xs| && key(xs[i]) == k
    decreases |xs|
  {
    if xs != [] {
      var init := xs[..|xs| - 1];
      var last := xs[|xs| - 1];
      TallyKeys(key, val, init, k);
      AddKeys(Tally(key, val, init), key(last), val(last));
      assert forall i :: 0 <= i < |init| ==> init[i] == xs[i];
      if exists i :: 0 <= i < |xs| && key(xs[i]) == k {
        var i :| 0 <= i < |xs| && key(xs[i]) == k;
        if i < |init| {
          assert key(init[i]) == k;
        }
      }
    }
  }

  /** The `forEach` loop itself. */
  method Group<T>(key: T -> string, val: T -> int, xs: seq<T>) returns (acc: seq<Entry>)
    ensures acc == Tally(key, val, xs)
  {
    acc := [];
    var i := 0;
    while i < |xs|
      invariant 0 <= i <= |xs|
      invariant acc == Tally(key, val, xs[..i])
    {
      assert xs[..i + 1][..i] == xs[..i];
      acc := Add(acc, key(xs[i]), val(xs[i]));
      i := i + 1;
    }
    assert xs[..|xs|] == xs;
  }
}

=== FILE: constants.dfy ===
/** The gateway URL scheme of src/utils/constants.js: a service prefix table, `buildUrl`, and the
    per-endpoint path builders of the `API` object. The gateway base (an environment variable
    that defaults to the empty string) is a parameter. */
module Api {
  /** The only name src/utils/constants.js exports. */
  const EXPORTED_NAMES: set<string> := {"API"}

  import opened Common
  import opened Text

  datatype Service = ProductService | InventoryService | SupplierService | OrderService | IdentityService

  /** SERVICE_PREFIXES. */
  function Prefix(svc: Service): (p: string)
    ensures |p| > 5 && p[..5] == "/api/"
  {
    match svc
    case ProductService => "/api/product"
    case InventoryService => "/api/inventory"
    case SupplierService => "/api/supplier"
    case OrderService => "/api/order"
    case IdentityService => "/api/identity"
  }

  /** A JavaScript value interpolated into a path: a number or a string. */
  datatype Key = NumKey(n: int) | TextKey(s: string)

  function Render(k: Key): string
  {
    match k
    case NumKey(n) => Decimal(n)
    case TextKey(s) => s
  }

  /** JavaScript truthiness of a key: 0 and "" are falsy. */
  predicate Truthy(k: Key)
  {
    match k
    case NumKey(n) => n != 0
    case TextKey(s) => s != ""
  }

  /** `buildUrl(service, path)`: gateway, prefix, and "/" + path only when path is truthy. */
  function BuildUrl(gateway: string, svc: Service, path: Key): (url: string)
    ensures |url| > |gateway| + 5 && url[..|gateway|] == gateway
    ensures url[|gateway|..|gateway| + 5] == "/api/"
  {
    gateway + Prefix(svc) + (if Truthy(path) then "/" + Render(path) else "")
  }

  /** Builders shared by the five services. */
  datatype CommonEndpoint = Health | Metrics | Base | ById(id: Key)

  datatype ProductEndpoint =
    | ProductCommon(c: CommonEndpoint)
    | BySku(sku: Key) | Batch | Search
    | Categories | CategoryById(id: Key)
    | Pricing | CalculatePrice | CalculateBundle
    | Lifecycle(state: Option<Key>) | LifecycleStats | PendingApprovals
    | Approve(id: Key) | Reject(id: Key) | Transition(id: Key, action: Key) | LifecycleHistory(id: Key)
    | MyRatings | RateProduct(id: Key)

  datatype InventoryEndpoint =
    | InventoryCommon(c: CommonEndpoint)
    | ByProductId(productId: Key) | InventoryBySku(sku: Key) | Adjust | Movements
    | Reserve | Release
    | Alerts | AlertById(id: Key) | AlertStats | AcknowledgeAlert(id: Key) | CheckAlerts
    | ResolveAlert(id: Key) | ReorderSuggestions
    | BulkCheck | Analytics

  datatype SupplierEndpoint =
    | SupplierCommon(c: CommonEndpoint)
    | MyProfile
    | PurchaseOrders | PurchaseOrderById(id: Key) | PurchaseOrderStatus(id: Key)
    | PurchaseOrderReceive(id: Key) | PurchaseOrderRespond(id: Key) | PurchaseOrderShip(id: Key)
    | SupplierPending(supplierId: Key) | SupplierResponse(id: Key)
    | Ratings(supplierId: Key)

  datatype OrderEndpoint =
    | OrderCommon(c: CommonEndpoint)
    | Status(id: Key) | Cancel(id: Key) | Items(id: Key) | Stats

  datatype IdentityEndpoint =
    | IdentityHealth | IdentityMetrics
    | Suppliers | Staff | Users | UserById(id: Key) | Groups

  datatype Endpoint =
    | OfProduct(p: ProductEndpoint)
    | OfInventory(i: InventoryEndpoint)
    | OfSupplier(s: SupplierEndpoint)
    | OfOrder(o: OrderEndpoint)
    | OfIdentity(d: IdentityEndpoint)
    | GatewayHealth

  /** A template-string path: always a (non-empty) string. */
  function T(s: string): Key { TextKey(s) }

  function CommonPath(c: CommonEndpoint): Key
  {
    match c
    case Health => T("health")
    case Metrics => T("metrics")
    case Base => T("")
    case ById(id) => id
  }

  function ProductPath(e: ProductEndpoint): Key
  {
    match e
    case ProductCommon(c) => CommonPath(c)
    case BySku(sku) => T("sku/" + Render(sku))
    case Batch => T("batch")
    case Search => T("search")
    case Categories => T("categories")
    case CategoryById(id) => T("categories/" + Render(id))
    case Pricing => T("pricing")
    case CalculatePrice => T("pricing/calculate")
    case CalculateBundle => T("pricing/calculate-bundle")
    case Lifecycle(state) =>
      T("lifecycle" + (if state.Some? && Truthy(state.value) then "/" + Render(state.value) else ""))
    case LifecycleStats => T("lifecycle-stats")
    case PendingApprovals => T("pending-approvals")
    case Approve(id) => T("lifecycle/" + Render(id) + "/approve")
    case Reject(id) => T("lifecycle/" + Render(id) + "/reject")
    case Transition(id, action) => T(Render(id) + "/" + Render(action))
    case LifecycleHistory(id) => T(Render(id) + "/lifecycle-history")
    case MyRatings => T("my-ratings")
    case RateProduct(id) => T(Render(id) + "/rate")
  }

  function InventoryPath(e: InventoryEndpoint): Key
  {
    match e
    case InventoryCommon(c) => CommonPath(c)
    case ByProductId(productId) => T("product/" + Render(productId))
    case InventoryBySku(sku) => T("sku/" + Render(sku))
    case Adjust => T("adjust")
    case Movements => T("movements")
    case Reserve => T("reserve")
    case Release => T("release")
    case Alerts => T("alerts")
    case AlertById(id) => T("alerts/" + Render(id))
    case AlertStats => T("alerts/stats")
    case AcknowledgeAlert(id) => T("alerts/" + Render(id) + "/acknowledge")
    case CheckAlerts => T("alerts/check")
    case ResolveAlert(id) => T("alerts/" + Render(id) + "/resolve")
    case ReorderSuggestions => T("alerts/reorder-suggestions")
    case BulkCheck => T("bulk-check")
    case Analytics => T("analytics")
  }

  function SupplierPath(e: SupplierEndpoint): Key
  {
    match e
    case SupplierCommon(c) => CommonPath(c)
    case MyProfile => T("profile/me")
    case PurchaseOrders => T("purchase-orders")
    case PurchaseOrderById(id) => T("purchase-orders/" + Render(id))
    case PurchaseOrderStatus(id) => T("purchase-orders/" + Render(id) + "/status")
    case PurchaseOrderReceive(id) => T("purchase-orders/" + Render(id) + "/receive")
    case PurchaseOrderRespond(id) => T("purchase-orders/" + Render(id) + "/respond")
    case PurchaseOrderShip(id) => T("purchase-orders/" + Render(id) + "/ship")
    case SupplierPending(supplierId) => T("purchase-orders/supplier/" + Render(supplierId) + "/pending")
    case SupplierResponse(id) => T("purchase-orders/" + Render(id) + "/supplier-response")
    case Ratings(supplierId) => T("ratings/" + Render(supplierId))
  }

  function OrderPath(e: OrderEndpoint): Key
  {
    match e
    case OrderCommon(c) => CommonPath(c)
    case Status(id) => T(Render(id) + "/status")
    case Cancel(id) => T(Render(id) + "/cancel")
    case Items(id) => T(Render(id) + "/items")
    case Stats => T("stats")
  }

  function IdentityPath(e: IdentityEndpoint): Key
  {
    match e
    case IdentityHealth => T("health")
    case IdentityMetrics => T("metrics")
    case Suppliers => T("suppliers")
    case Staff => T("staff")
    case Users => T("users")
    case UserById(id) => T("users/" + Render(id))
    case Groups => T("groups")
  }

  /** The complete URL an `API.*` builder returns. Every service URL is the gateway followed by a
      prefix beginning "/api/"; the gateway health URL is the gateway followed by "/health". */
  function Url(gateway: string, e: Endpoint): (url: string)
    ensures |url| > |gateway| && url[..|gateway|] == gateway
    ensures !e.GatewayHealth? ==> |url| > |gateway| + 5 && url[|gateway|..|gateway| + 5] == "/api/"
    ensures e.GatewayHealth? ==> url[|gateway|..] == "/health"
  {
    match e
    case OfProduct(p) => BuildUrl(gateway, ProductService, ProductPath(p))
    case OfInventory(i) => BuildUrl(gateway, InventoryService, InventoryPath(i))
    case OfSupplier(s) => BuildUrl(gateway, SupplierService, SupplierPath(s))
    case OfOrder(o) => BuildUrl(gateway, OrderService, OrderPath(o))
    case OfIdentity(d) => BuildUrl(gateway, IdentityService, IdentityPath(d))
    case GatewayHealth => gateway + "/health"
  }

  /** `buildUrl(s)` / `buildUrl(s, '')` is gateway + prefix with no trailing slash; a non-empty
      path is joined with exactly one inserted "/". */
  lemma BuildUrlJoin(gateway: string, svc: Service, path: string)
    ensures path == "" ==> BuildUrl(gateway, svc, TextKey(path)) == gateway + Prefix(svc)
    ensures path == "" ==> BuildUrl(gateway, svc, TextKey(path))[|gateway + Prefix(svc)| - 1] != '/'
    ensures path != "" ==> BuildUrl(gateway, svc, TextKey(path)) == gateway + Prefix(svc) + "/" + path
  {
    if path == "" {
      var p := Prefix(svc);
      assert (gateway + p)[|gateway + p| - 1] == p[|p| - 1];
    }
  }

  /** A numeric id of 0 is falsy, so `byId(0)` yields the collection URL, while any other id
      adds one path segment. */
  lemma ByIdZeroIsBase(gateway: string, svc: Service)
    ensures BuildUrl(gateway, svc, NumKey(0)) == BuildUrl(gateway, svc, TextKey(""))
    ensures forall n :: n != 0 ==> BuildUrl(gateway, svc, NumKey(n)) == gateway + Prefix(svc) + "/" + Decimal(n)
  {
  }

  /** `lifecycle(state)`: ".../lifecycle" for a missing or falsy state, ".../lifecycle/<state>" otherwise. */
  lemma LifecycleUrl(gateway: string, state: Option<Key>)
    ensures !(state.Some? && Truthy(state.value)) ==>
              Url(gateway, OfProduct(Lifecycle(state))) == gateway + "/api/product/lifecycle"
    ensures state.Some? && Truthy(state.value) ==>
              Url(gateway, OfProduct(Lifecycle(state))) == gateway + "/api/product/lifecycle/" + Render(state.value)
  {
    var tail := if state.Some? && Truthy(state.value) then "/" + Render(state.value) else "";
    ProductUrl(gateway, Lifecycle(state), "lifecycle" + tail);
  }

  /** A product endpoint whose path is a non-empty template string. */
  lemma ProductUrl(gateway: string, e: ProductEndpoint, path: string)
    requires ProductPath(e) == TextKey(path) && path != ""
    ensures Url(gateway, OfProduct(e)) == gateway + "/api/product/" + path
  {
    assert Truthy(TextKey(path));
  }

  /** `transition(id, action)` is prefix/id/action. */
  lemma TransitionUrl(gateway: string, id: Key, action: Key)
    ensures Url(gateway, OfProduct(Transition(id, action))) ==
            gateway + "/api/product/" + Render(id) + "/" + Render(action)
  {
    ProductUrl(gateway, Transition(id, action), Render(id) + "/" + Render(action));
  }

  /** `lifecycleHistory(id)` is prefix/id/lifecycle-history. */
  lemma HistoryUrl(gateway: string, id: Key)
    ensures Url(gateway, OfProduct(LifecycleHistory(id))) ==
            gateway + "/api/product/" + Render(id) + "/lifecycle-history"
  {
    ProductUrl(gateway, LifecycleHistory(id), Render(id) + "/lifecycle-history");
  }

  /** A transition named "approve" does not hit the URL of `approve(id)`, which lives under "lifecycle/". */
  lemma TransitionIsNotApprove(gateway: string, id: Key)
    ensures Url(gateway, OfProduct(Transition(id, TextKey("approve")))) != Url(gateway, OfProduct(Approve(id)))
  {
    var r := Render(id);
    var a := r + "/" + "approve";
    var b := "lifecycle/" + r + "/approve";
    ProductUrl(gateway, Transition(id, TextKey("approve")), a);
    ProductUrl(gateway, Approve(id), b);
    assert |b| == |a| + 10;
  }

  /** `gateway.health()` always ends in "/health", so it is never the empty string. */
  lemma GatewayHealthNonEmpty(gateway: string)
    ensures Url(gateway, GatewayHealth) != ""
    ensures var u := Url(gateway, GatewayHealth); u[|u| - 7..] == "/health"
  {
  }
}

=== FILE: inventory_dashboard.dfy ===
/** The inventory dashboard (src/pages/inventory/InventoryDashboard.jsx): the stock status of
    each row and the three counters above the table. */
module InventoryDashboard {
  import opened Seqs

  datatype InventoryRow = InventoryRow(sku: string, productId: int, available: int,
                                       reorderLevel: int, maxStockLevel: int)

  datatype StockStatus = OutOfStock | LowStock | Overstock | InStock

  /** The badge of a status: label and variant. */
  function BadgeOf(s: StockStatus): (b: (string, string))
  {
    match s
    case OutOfStock => ("Out of Stock", "danger")
    case LowStock => ("Low Stock", "warning")
    case Overstock => ("Overstock", "info")
    case InStock => ("In Stock", "success")
  }

  /** `getStockStatus`: the first matching test wins: nothing available, at or below the
      reorder level, at or above nine tenths of the maximum, otherwise in stock. */
  function Status(r: InventoryRow): (s: StockStatus)
    ensures s == OutOfStock <==> r.available == 0
    ensures s == LowStock <==> r.available != 0 && r.available <= r.reorderLevel
    ensures s == Overstock <==>
              r.available != 0 && r.available > r.reorderLevel && r.available * 10 >= r.maxStockLevel * 9
    ensures s == InStock <==>
              r.available != 0 && r.available > r.reorderLevel && r.available * 10 < r.maxStockLevel * 9
  {
    if r.available == 0 then OutOfStock
    else if r.available <= r.reorderLevel then LowStock
    else if r.available * 10 >= r.maxStockLevel * 9 then Overstock
    else InStock
  }

  /** The badge labels are distinct, so a label identifies its status. */
  lemma BadgeLabelsDistinct(a: StockStatus, b: StockStatus)
    ensures BadgeOf(a).0 == BadgeOf(b).0 <==> a == b
  {
    if a != b {
      assert BadgeOf(a).0[0] != BadgeOf(b).0[0] || |BadgeOf(a).0| != |BadgeOf(b).0|;
    }
  }

  predicate CountedLow(r: InventoryRow) { r.available <= r.reorderLevel && r.available > 0 }

  predicate CountedOut(r: InventoryRow) { r.available == 0 }

  datatype Stats = Stats(totalItems: nat, lowStock: nat, outOfStock: nat)

  /** The counters: all rows, rows low but not empty, and empty rows. */
  function StatsOf(rows: seq<InventoryRow>): (st: Stats)
    ensures st.totalItems == |rows|
    ensures st.lowStock + st.outOfStock <= st.totalItems
    ensures st.lowStock == Count(CountedLow, rows) && st.outOfStock == Count(CountedOut, rows)
  {
    CountDisjoint(CountedLow, CountedOut, rows);
    Stats(|rows|, Count(CountedLow, rows), Count(CountedOut, rows))
  }

  /** With no negative quantities, the counters agree with the badges in the table. */
  lemma CountersMatchBadges(rows: seq<InventoryRow>)
    requires forall i :: 0 <= i < |rows| ==> rows[i].available >= 0
    ensures StatsOf(rows).lowStock == Count(r => Status(r) == LowStock, rows)
    ensures StatsOf(rows).outOfStock == Count(r => Status(r) == OutOfStock, rows)
  {
    CountAgree(CountedLow, r => Status(r) == LowStock, rows);
    CountAgree(CountedOut, r => Status(r) == OutOfStock, rows);
  }

  /** A negative quantity is labelled Low Stock but not counted as low. */
  lemma NegativeIsLabelledButNotCounted(r: InventoryRow)
    requires r.available < 0 && r.reorderLevel >= 0
    ensures Status(r) == LowStock && !CountedLow(r)
  {
  }
}

=== FILE: lifecycle.dfy ===
/** The product lifecycle page: which transitions an admin is offered in each state, the
    state badge colours, the request bodies it posts and how history events are shown. */
module ProductLifecycle {
  import opened Common
  import opened Text
  import Api
  import opened Auth

  datatype State = Draft | PendingApproval | Approved | Active | Discontinued | Archived
  datatype Action = SubmitForApproval | Approve | Activate | Discontinue | Archive

  function StateName(s: State): string
  {
    match s
    case Draft => "draft"
    case PendingApproval => "pending_approval"
    case Approved => "approved"
    case Active => "active"
    case Discontinued => "discontinued"
    case Archived => "archived"
  }

  function ActionName(a: Action): string
  {
    match a
    case SubmitForApproval => "submit-for-approval"
    case Approve => "approve"
    case Activate => "activate"
    case Discontinue => "discontinue"
    case Archive => "archive"
  }

  /** The lifecycle state a product's `lifecycle_state` string names, if any. */
  function ParseState(name: string): (s: Option<State>)
    ensures s.Some? ==> StateName(s.value) == name
    ensures forall st :: StateName(st) == name ==> s == Some(st)
  {
    if name == "draft" then Some(Draft)
    else if name == "pending_approval" then Some(PendingApproval)
    else if name == "approved" then Some(Approved)
    else if name == "active" then Some(Active)
    else if name == "discontinued" then Some(Discontinued)
    else if name == "archived" then Some(Archived)
    else None
  }

  /** The page's transition table; archived has no entry. */
  function Table(s: State): seq<Action>
  {
    match s
    case Draft => [SubmitForApproval]
    case PendingApproval => [Approve]
    case Approved => [Activate]
    case Active => [Discontinue]
    case Discontinued => [Activate, Archive]
    case Archived => []
  }

  /** The page's admin test looks at the primary role only. */
  predicate IsAdmin(user: Option<User>)
  {
    user.Some? && user.value.role == ADMIN
  }

  /** `getAvailableActions(state)`: the table entry for a known state (nothing for an unknown
      one), and nothing at all for a non-admin. */
  function AvailableActions(isAdmin: bool, state: string): (acts: seq<Action>)
    ensures !isAdmin ==> acts == []
    ensures isAdmin && ParseState(state).Some? ==> acts == Table(ParseState(state).value)
    ensures ParseState(state).None? ==> acts == []
    ensures |acts| <= 2
    ensures |acts| == 2 ==> state == "discontinued"
    ensures Activate in acts ==> state == "approved" || state == "discontinued"
    ensures Approve in acts <==> isAdmin && state == "pending_approval"
  {
    var actions := match ParseState(state) case Some(s) => Table(s) case None => [];
    if !isAdmin then [] else actions
  }

  /** Archived is terminal: nobody is offered a move out of it. */
  lemma ArchivedIsTerminal(isAdmin: bool)
    ensures AvailableActions(isAdmin, "archived") == []
  {
  }

  /** Every other state offers an admin at least one move. */
  lemma {:induction false} OnlyArchivedIsTerminal(s: State)
    requires s != Archived
    ensures AvailableActions(true, StateName(s)) != []
  {
    assert ParseState(StateName(s)) == Some(s);
  }

  /** For a user built by the provider, the page's primary-role admin test agrees with
      holding the admin role at all. */
  lemma {:induction false} AdminTestAgreesWithRoles(u: User)
    requires WellFormed(u)
    ensures IsAdmin(Some(u)) <==> ADMIN in u.roles
  {
    assert IsRoleName(u.roles[0]) && u.roles[0] in u.roles;
  }

  /** `getStateColor(state)`: a colour for every string, grey when unknown. */
  function StateColor(state: string): (c: string)
    ensures c in {"gray", "yellow", "blue", "green", "red"}
    ensures ParseState(state).None? ==> c == "gray"
    ensures c == "gray" <==> state != "pending_approval" && state != "approved" && state != "active" && state != "discontinued"
  {
    if state == "pending_approval" then "yellow"
    else if state == "approved" then "blue"
    else if state == "active" then "green"
    else if state == "discontinued" then "red"
    else "gray"
  }

  /** The creation body: the form's fields spread, with `created_by` fixed to 1. */
  function CreateBody(form: map<string, Value>): (body: map<string, Value>)
    ensures body.Keys == form.Keys + {"created_by"}
    ensures body["created_by"] == Int(1)
    ensures forall k :: k in form && k != "created_by" ==> body[k] == form[k]
  {
    form["created_by" := Int(1)]
  }

  /** The create form's blank state, used initially and after a successful creation. */
  const BLANK_FORM: map<string, Value> :=
    map["name" := Str(""), "category_id" := Str(""), "unit_price" := Str(""),
        "description" := Str(""), "size" := Str(""), "color" := Str("")]

  /** `handleTransition(productId, action)`: always user 1 and the note "<action> action". */
  function TransitionRequest(gateway: string, productId: Api.Key, a: Action): (req: Request)
    ensures req.verb == Post
    ensures req.body.Keys == {"userId", "notes"}
    ensures req.body["userId"] == Int(1) && req.body["notes"] == Str(ActionName(a) + " action")
    ensures req.url == gateway + "/api/product/" + Api.Render(productId) + "/" + ActionName(a)
  {
    Api.TransitionUrl(gateway, productId, Api.TextKey(ActionName(a)));
    Request(Post, Api.Url(gateway, Api.OfProduct(Api.Transition(productId, Api.TextKey(ActionName(a))))),
            map["userId" := Int(1), "notes" := Str(ActionName(a) + " action")])
  }

  /** One row of the lifecycle history. */
  datatype HistoryEvent = HistoryEvent(oldState: Option<string>, newState: string)

  datatype Badge = Badge(text: string, color: string)

  /** A history event shows old -> new when `old_state` is truthy, else only the new state. */
  function HistoryBadges(ev: HistoryEvent): (bs: seq<Badge>)
    ensures 1 <= |bs| <= 2
    ensures |bs| == 2 <==> ev.oldState.Some? && ev.oldState.value != ""
    ensures bs[|bs| - 1] == Badge(ev.newState, StateColor(ev.newState))
    ensures |bs| == 2 ==> bs[0] == Badge(ev.oldState.value, StateColor(ev.oldState.value))
  {
    var last := Badge(ev.newState, StateColor(ev.newState));
    if ev.oldState.Some? && ev.oldState.value != "" then
      [Badge(ev.oldState.value, StateColor(ev.oldState.value)), last]
    else [last]
  }

  /** Button and card captions: `action.replace(/-/g, " ")`, `state.replace(/_/g, " ")`. */
  function ActionLabel(a: Action): (caption: string)
    ensures |caption| == |ActionName(a)| && '-' !in caption
  {
    ReplaceAll(ActionName(a), '-', ' ')
  }

  function StateLabel(state: string): (caption: string)
    ensures |caption| == |state| && '_' !in caption
  {
    ReplaceAll(state, '_', ' ')
  }

  /** The pending-approvals panel: shown only to an admin with at least one product awaiting
      approval, with one Approve button per pending product, in list order, each posting the
      approve transition of that product. */
  function PendingPanel(gateway: string, isAdmin: bool, pending: seq<Api.Key>): (approvals: Option<seq<Request>>)
    ensures approvals.Some? <==> isAdmin && |pending| > 0
    ensures approvals.Some? ==>
              |approvals.value| == |pending| &&
              forall i :: 0 <= i < |pending| ==> approvals.value[i] == TransitionRequest(gateway, pending[i], Approve)
  {
    if isAdmin && |pending| > 0 then
      Some(seq(|pending|, i requires 0 <= i < |pending| => TransitionRequest(gateway, pending[i], Approve)))
    else None
  }
}

=== FILE: login.dfy ===
/** The sign-in page: redirects a signed-in user away, otherwise offers the sign-in button
    and a registration link. */
module Login {
  import opened Common
  import opened Text
  import opened Auth
  import opened RootRedirect

  /** The redirect effect: only a signed-in, loaded user moves, to their landing page,
      replacing the history entry. */
  function Redirect(isAuthenticated: bool, user: Option<User>): (n: Navigation)
    ensures n.NavigateTo? <==> isAuthenticated && user.Some?
    ensures n.NavigateTo? ==> n.replace && n.path == DashboardFor(user.value.role)
  {
    if isAuthenticated && user.Some? then NavigateTo(DashboardFor(user.value.role), true) else Stay
  }

  /** Whenever the sign-in page moves, it moves where the root redirect would; and it never
      sends the visitor to itself. */
  lemma RedirectAgreesWithRoot(isAuthenticated: bool, user: Option<User>)
    ensures Redirect(isAuthenticated, user).NavigateTo? ==>
              Redirect(isAuthenticated, user) == Decide(isAuthenticated, user)
    ensures Redirect(isAuthenticated, user).NavigateTo? ==> Redirect(isAuthenticated, user).path != "/login"
  {
  }

  datatype View = LoadingView | SignInView(registerUrl: string)

  /** The organisation in the registration link: the text after "/t/" in the configured
      base URL, or "kubestock" when the variable is missing, has no "/t/" or nothing after it. */
  function RegisterOrg(env: Option<string>): (org: string)
    ensures org != ""
    ensures env.None? ==> org == "kubestock"
    ensures env.Some? && !Contains(env.value, "/t/") ==> org == "kubestock"
    ensures env.Some? && SecondPiece(env.value, "/t/") == Some("") ==> org == "kubestock"
    ensures env.Some? && SecondPiece(env.value, "/t/").Some? && SecondPiece(env.value, "/t/").value != "" ==>
              org == SecondPiece(env.value, "/t/").value
  {
    if env.None? then "kubestock"
    else match SecondPiece(env.value, "/t/")
      case Some(o) => if o != "" then o else "kubestock"
      case None => "kubestock"
  }

  /** The page: a loading view while the provider initialises, otherwise the sign-in view. */
  function Page(loading: bool, env: Option<string>): (v: View)
    ensures v == LoadingView <==> loading
    ensures v.SignInView? ==> v.registerUrl == "https://myaccount.asgardeo.io/t/" + RegisterOrg(env) + "/register"
  {
    if loading then LoadingView
    else SignInView("https://myaccount.asgardeo.io/t/" + RegisterOrg(env) + "/register")
  }

  /** A tenant URL with one "/t/" registers with its own organisation. */
  lemma {:induction false} RegisterOrgOfTenantUrl(host: string, org: string)
    requires org != ""
    requires forall j :: OccursAt(host + "/t/" + org, "/t/", j) ==> j == |host|
    ensures RegisterOrg(Some(host + "/t/" + org)) == org
  {
    SecondPieceOfSingle(host, "/t/", org);
  }
}

=== FILE: order_create.dfy ===
/** The create-order form: a header of order fields and a never-empty list of item rows,
    the running total, the submit checks and the payload. */
module OrderCreate {
  import opened Common
  import opened Text
  import opened Seqs

  datatype Field = ProductId | Sku | ProductName | Quantity | UnitPrice

  /** One item row; every input holds text. */
  datatype Item = Item(productId: string, sku: string, productName: string, quantity: string, unitPrice: string)

  const BLANK_ITEM := Item("", "", "", "", "")

  function Get(it: Item, f: Field): string
  {
    match f
    case ProductId => it.productId
    case Sku => it.sku
    case ProductName => it.productName
    case Quantity => it.quantity
    case UnitPrice => it.unitPrice
  }

  /** `item[field] = value`: the one field changes, the others stay. */
  function With(it: Item, f: Field, v: string): (r: Item)
    ensures Get(r, f) == v
    ensures forall g :: g != f ==> Get(r, g) == Get(it, g)
  {
    match f
    case ProductId => it.(productId := v)
    case Sku => it.(sku := v)
    case ProductName => it.(productName := v)
    case Quantity => it.(quantity := v)
    case UnitPrice => it.(unitPrice := v)
  }

  /** A row's contribution to the total: quantity times price, each `parseFloat(...) || 0`. */
  function Line(it: Item): real
  {
    FloatOrZero(it.quantity) * FloatOrZero(it.unitPrice)
  }

  /** The `reduce` over the rows. */
  function Total(items: seq<Item>): real
    decreases |items|
  {
    if items == [] then 0.0 else Total(items[..|items| - 1]) + Line(items[|items| - 1])
  }

  /** The reduction as the loop it runs. */
  method ComputeTotal(items: seq<Item>) returns (total: real)
    ensures total == Total(items)
  {
    total := 0.0;
    var i := 0;
    while i < |items|
      invariant 0 <= i <= |items|
      invariant total == Total(items[..i])
    {
      assert items[..i + 1][..i] == items[..i];
      total := total + Line(items[i]);
      i := i + 1;
    }
    assert items[..|items|] == items;
  }

  /** A blank row adds nothing to the total. */
  lemma {:induction false} BlankRowAddsNothing(items: seq<Item>)
    ensures Total(items + [BLANK_ITEM]) == Total(items)
  {
    assert (items + [BLANK_ITEM])[..|items|] == items;
    ParseFloatDecimal(0);
  }

  /** The total is the sum of the rows: a row's line counts once wherever it sits. */
  lemma {:induction false} TotalSplit(a: seq<Item>, b: seq<Item>)
    ensures Total(a + b) == Total(a) + Total(b)
    decreases |b|
  {
    if b == [] {
      assert a + b == a;
    } else {
      var b' := b[..|b| - 1];
      TotalSplit(a, b');
      assert (a + b)[..|a + b| - 1] == a + b';
    }
  }

  /** Replacing one row changes the total by the change in that row's line. */
  lemma {:induction false} TotalReplace(items: seq<Item>, i: nat, x: Item)
    requires i < |items|
    ensures Total(items[i := x]) == Total(items) - Line(items[i]) + Line(x)
    decreases |items|
  {
    var n := |items|;
    var edited := items[i := x];
    assert |edited| == n;
    if i == n - 1 {
      assert edited[..n - 1] == items[..n - 1];
    } else {
      TotalReplace(items[..n - 1], i, x);
      assert edited[..n - 1] == items[..n - 1][i := x];
    }
  }

  /** Editing a field other than quantity or price leaves the total unchanged. */
  lemma {:induction false} NameEditKeepsTotal(items: seq<Item>, i: nat, f: Field, v: string)
    requires i < |items| && f != Quantity && f != UnitPrice
    ensures Total(items[i := With(items[i], f, v)]) == Total(items)
  {
    var edited := With(items[i], f, v);
    TotalReplace(items, i, edited);
    assert Get(edited, Quantity) == Get(items[i], Quantity);
    assert Get(edited, UnitPrice) == Get(items[i], UnitPrice);
    assert Line(edited) == Line(items[i]);
  }

  /** The order total field: what the user typed, or the computed total written by an item
      edit (`total.toFixed(2)`, whose rounding is not modelled). */
  datatype Amount = Entered(text: string) | Computed(value: real)

  datatype HeaderField = CustomerId | TotalAmount | ShippingAddress | PaymentMethod | PaymentStatus | Notes

  datatype Header = Header(customerId: string, totalAmount: Amount, shippingAddress: string,
                           paymentMethod: string, paymentStatus: string, notes: string)

  const INITIAL_HEADER := Header("", Entered(""), "", "credit_card", "pending", "")

  /** A header field as the form shows it; the text fields read as typed amounts. */
  function Read(h: Header, g: HeaderField): Amount
  {
    match g
    case CustomerId => Entered(h.customerId)
    case TotalAmount => h.totalAmount
    case ShippingAddress => Entered(h.shippingAddress)
    case PaymentMethod => Entered(h.paymentMethod)
    case PaymentStatus => Entered(h.paymentStatus)
    case Notes => Entered(h.notes)
  }

  /** `handleInputChange`: the named header field takes the typed text and no other field changes. */
  function SetHeader(h: Header, f: HeaderField, v: string): (r: Header)
    ensures forall g :: Read(r, g) == if g == f then Entered(v) else Read(h, g)
  {
    match f
    case CustomerId => h.(customerId := v)
    case TotalAmount => h.(totalAmount := Entered(v))
    case ShippingAddress => h.(shippingAddress := v)
    case PaymentMethod => h.(paymentMethod := v)
    case PaymentStatus => h.(paymentStatus := v)
    case Notes => h.(notes := v)
  }

  /** JavaScript truthiness of the total field: `toFixed` never yields "". */
  predicate AmountGiven(a: Amount)
  {
    a.Computed? || a.text != ""
  }

  function AmountValue(a: Amount): Option<real>
  {
    match a
    case Entered(t) => ParseFloat(t)
    case Computed(r) => Some(r)
  }

  /** Every one of the five row fields is filled in. */
  predicate Complete(it: Item)
  {
    it.productId != "" && it.sku != "" && it.productName != "" && it.quantity != "" && it.unitPrice != ""
  }

  /** One row of the payload: ids and quantity through `parseInt`, price through
      `parseFloat`, names as typed. */
  function ItemPayload(it: Item): (v: Value)
    ensures v.Obj? && v.fields.Keys == {"product_id", "sku", "product_name", "quantity", "unit_price"}
    ensures v.fields["sku"] == Str(it.sku) && v.fields["product_name"] == Str(it.productName)
    ensures v.fields["product_id"] == IntOrNull(ParseInt(it.productId))
    ensures v.fields["quantity"] == IntOrNull(ParseInt(it.quantity))
    ensures v.fields["unit_price"] == NumOrNull(ParseFloat(it.unitPrice))
  {
    Obj(map["product_id" := IntOrNull(ParseInt(it.productId)), "sku" := Str(it.sku),
            "product_name" := Str(it.productName), "quantity" := IntOrNull(ParseInt(it.quantity)),
            "unit_price" := NumOrNull(ParseFloat(it.unitPrice))])
  }

  /** `orderData`: the header spread, customer id through `parseInt`, total through
      `parseFloat`, and one converted row per item row, in order. */
  function OrderPayload(h: Header, items: seq<Item>): (body: map<string, Value>)
    ensures body.Keys == {"customer_id", "total_amount", "shipping_address", "payment_method", "payment_status", "notes", "items"}
    ensures body["customer_id"] == IntOrNull(ParseInt(h.customerId))
    ensures body["total_amount"] == NumOrNull(AmountValue(h.totalAmount))
    ensures body["shipping_address"] == Str(h.shippingAddress) && body["payment_method"] == Str(h.paymentMethod)
    ensures body["payment_status"] == Str(h.paymentStatus) && body["notes"] == Str(h.notes)
    ensures body["items"].Arr? && |body["items"].elems| == |items|
    ensures forall i :: 0 <= i < |items| ==> body["items"].elems[i] == ItemPayload(items[i])
  {
    map["customer_id" := IntOrNull(ParseInt(h.customerId)),
        "total_amount" := NumOrNull(AmountValue(h.totalAmount)),
        "shipping_address" := Str(h.shippingAddress),
        "payment_method" := Str(h.paymentMethod),
        "payment_status" := Str(h.paymentStatus),
        "notes" := Str(h.notes),
        "items" := Arr(Map(ItemPayload, items))]
  }

  /** What submitting does: a warning for a missing customer or total, a warning for an
      incomplete row, or the order payload. */
  datatype Submission = MissingRequired | IncompleteItems | Send(body: map<string, Value>)

  function Submit(h: Header, items: seq<Item>): (s: Submission)
    ensures s == MissingRequired <==> h.customerId == "" || !AmountGiven(h.totalAmount)
    ensures s == IncompleteItems <==>
              h.customerId != "" && AmountGiven(h.totalAmount) && exists i :: 0 <= i < |items| && !Complete(items[i])
    ensures s.Send? ==> (forall i :: 0 <= i < |items| ==> Complete(items[i])) && s.body == OrderPayload(h, items)
  {
    if h.customerId == "" || !AmountGiven(h.totalAmount) then MissingRequired
    else if exists i :: 0 <= i < |items| && !Complete(items[i]) then IncompleteItems
    else Send(OrderPayload(h, items))
  }

  /** The page's state. */
  class OrderForm {
    var header: Header
    var items: seq<Item>

    /** The row list is never empty. */
    ghost predicate Valid()
      reads this
    {
      |items| >= 1
    }

    constructor ()
      ensures Valid() && header == INITIAL_HEADER && items == [BLANK_ITEM]
    {
      header := INITIAL_HEADER;
      items := [BLANK_ITEM];
    }

    method SetInput(f: HeaderField, v: string)
      modifies this
      ensures header == SetHeader(old(header), f, v) && items == old(items)
    {
      header := SetHeader(header, f, v);
    }

    /** `handleItemChange(index, field, value)`: the one field of the one row changes, and
        the total field is overwritten with the recomputed total. */
    method ChangeItem(index: nat, f: Field, v: string)
      requires Valid() && index < |items|
      modifies this
      ensures Valid()
      ensures items == old(items)[index := With(old(items)[index], f, v)]
      ensures header == old(header).(totalAmount := Computed(Total(items)))
    {
      items := items[index := With(items[index], f, v)];
      var total := ComputeTotal(items);
      header := header.(totalAmount := Computed(total));
    }

    /** `addOrderItem`: one blank row at the end. */
    method AddItem()
      requires Valid()
      modifies this
      ensures Valid() && items == old(items) + [BLANK_ITEM] && header == old(header)
    {
      items := items + [BLANK_ITEM];
    }

    /** `removeOrderItem(index)`: removes the row only while more than one remains; the
        total field is left as it was. */
    method RemoveItem(index: int)
      requires Valid()
      modifies this
      ensures Valid() && header == old(header)
      ensures items == if |old(items)| > 1 then RemoveAt(old(items), index) else old(items)
    {
      if |items| > 1 {
        items := RemoveAt(items, index);
      }
    }

    /** Removal as evidently intended: the same removal, then the total recomputed as an
        item edit does. */
    method RemoveItemRetotalled(index: int)
      requires Valid()
      modifies this
      ensures Valid()
      ensures items == if |old(items)| > 1 then RemoveAt(old(items), index) else old(items)
      ensures |old(items)| > 1 ==> header == old(header).(totalAmount := Computed(Total(items)))
      ensures |old(items)| <= 1 ==> header == old(header)
    {
      if |items| > 1 {
        items := RemoveAt(items, index);
        var total := ComputeTotal(items);
        header := header.(totalAmount := Computed(total));
      }
    }
  }

  /** The two complete rows of the stale-total example. */
  const WIDGETS := Item("1", "SKU-1", "Widget", "2", "5")
  const GADGET := Item("2", "SKU-2", "Gadget", "1", "3")

  lemma ExampleTotals()
    ensures Total([WIDGETS, GADGET]) == 13.0 && Total([GADGET]) == 3.0
  {
    ParseFloatDecimal(1);
    ParseFloatDecimal(2);
    ParseFloatDecimal(3);
    ParseFloatDecimal(5);
    assert Decimal(1) == "1" && Decimal(2) == "2" && Decimal(3) == "3" && Decimal(5) == "5";
    assert Line(WIDGETS) == 10.0 && Line(GADGET) == 3.0;
    var items := [WIDGETS, GADGET];
    assert [WIDGETS][..0] == [] && [GADGET][..0] == [];
    assert Total([WIDGETS]) == 10.0 && Total([GADGET]) == 3.0;
    assert items[..1] == [WIDGETS];
    assert Total(items) == Total([WIDGETS]) + Line(GADGET);
  }

  /** As written, removing a row keeps the old total: with the complete rows (qty 2, price 5)
      and (qty 1, price 3) the total field reads 13 after the last edit; once the first row is
      removed the remaining row totals 3, yet submitting sends a total_amount of 13. */
  lemma StaleTotalAfterRemoval(h: Header)
    requires h == INITIAL_HEADER.(customerId := "7", totalAmount := Computed(Total([WIDGETS, GADGET])))
    ensures Total([WIDGETS, GADGET]) == 13.0 && Total(RemoveAt([WIDGETS, GADGET], 0)) == 3.0
    ensures Submit(h, RemoveAt([WIDGETS, GADGET], 0)) == Send(OrderPayload(h, [GADGET]))
    ensures OrderPayload(h, [GADGET])["total_amount"] == Num(13.0)
  {
    ExampleTotals();
    assert RemoveAt([WIDGETS, GADGET], 0) == [GADGET];
    assert h.customerId != "" && h.totalAmount == Computed(13.0);
    SubmitComplete(h, [GADGET]);
  }

  /** A form with a customer, a total and only complete rows is sent. */
  lemma SubmitComplete(h: Header, items: seq<Item>)
    requires h.customerId != "" && AmountGiven(h.totalAmount)
    requires forall i :: 0 <= i < |items| ==> Complete(items[i])
    ensures Submit(h, items) == Send(OrderPayload(h, items))
  {
  }
}

=== FILE: order_details.dfy ===
/** The order details page: the status badge, the status-update buttons and the payment badge. */
module OrderDetails {
  import opened Common

  /** `getStatusBadge(status)`: the badge variant for an order status. */
  function StatusVariant(status: string): (v: string)
    ensures v in {"warning", "info", "primary", "success", "danger", "default"}
    ensures status == "pending" <==> v == "warning"
    ensures status == "processing" <==> v == "info"
    ensures status == "shipped" <==> v == "primary"
    ensures status == "delivered" <==> v == "success"
    ensures status == "cancelled" <==> v == "danger"
  {
    if status == "pending" then "warning"
    else if status == "processing" then "info"
    else if status == "shipped" then "primary"
    else if status == "delivered" then "success"
    else if status == "cancelled" then "danger"
    else "default"
  }

  /** The forward path an order travels. */
  const PROGRESSION: seq<string> := ["pending", "processing", "shipped", "delivered"]

  /** The forward move the page offers for a status, if any. */
  function Forward(status: string): (next: Option<string>)
    ensures next.Some? <==> status in {"pending", "processing", "shipped"}
    ensures next.Some? ==> next.value != status && next.value != "pending"
  {
    if status == "pending" then Some("processing")
    else if status == "processing" then Some("shipped")
    else if status == "shipped" then Some("delivered")
    else None
  }

  /** Each forward move is one step along the progression. */
  lemma {:induction false} ForwardIsNextStep(i: nat)
    requires i < 3
    ensures Forward(PROGRESSION[i]) == Some(PROGRESSION[i + 1])
  {
    if i == 0 {} else if i == 1 {} else {}
  }

  /** The statuses the page's buttons set, in display order: the forward move, then
      "cancelled" unless the order is cancelled or delivered. */
  function StatusButtons(status: string): (targets: seq<string>)
    ensures |targets| <= 2
    ensures "cancelled" in targets <==> status != "cancelled" && status != "delivered"
    ensures forall t :: t in targets && t != "cancelled" ==> Forward(status) == Some(t)
    ensures Forward(status).Some? ==> targets[0] == Forward(status).value
    ensures targets == [] <==> status == "cancelled" || status == "delivered"
  {
    (if Forward(status).Some? then [Forward(status).value] else [])
    + (if status != "cancelled" && status != "delivered" then ["cancelled"] else [])
  }

  /** The status after pressing the forward button `steps` times (or until none is offered). */
  function Advance(status: string, steps: nat): string
    decreases steps
  {
    if steps == 0 then status
    else match Forward(status)
      case Some(next) => Advance(next, steps - 1)
      case None => status
  }

  /** Following the forward moves from "pending" reaches "delivered" in three steps, and
      "delivered" offers no further move. */
  lemma {:induction false} PendingReachesDelivered()
    ensures Advance("pending", 3) == "delivered"
    ensures forall n :: Advance("delivered", n) == "delivered"
  {
    assert Advance("pending", 3) == Advance("processing", 2) == Advance("shipped", 1) == Advance("delivered", 0);
    forall n: nat ensures Advance("delivered", n) == "delivered" {
    }
  }

  /** The payment badge: "success" exactly for a paid order, and a missing or empty status
      is shown as "pending". */
  datatype Badge = Badge(variant: string, text: string)

  function PaymentBadge(paymentStatus: Option<string>): (b: Badge)
    ensures b.variant == "success" <==> paymentStatus == Some("paid")
    ensures b.variant != "success" ==> b.variant == "warning"
    ensures paymentStatus.Some? && paymentStatus.value != "" ==> b.text == paymentStatus.value
    ensures !(paymentStatus.Some? && paymentStatus.value != "") ==> b.text == "pending"
  {
    Badge(if paymentStatus == Some("paid") then "success" else "warning",
          if paymentStatus.Some? && paymentStatus.value != "" then paymentStatus.value else "pending")
  }

  /** What the page shows: a spinner while loading, "Order Not Found" with no order,
      otherwise the order with its badge and status buttons. */
  datatype View = Loading | NotFound | Details(variant: string, buttons: seq<string>)

  function Page(loading: bool, status: Option<string>): (v: View)
    ensures loading ==> v == Loading
    ensures !loading && status.None? ==> v == NotFound
    ensures v.Details? ==> v.variant == StatusVariant(status.value) && v.buttons == StatusButtons(status.value)
  {
    if loading then Loading
    else if status.None? then NotFound
    else Details(StatusVariant(status.value), StatusButtons(status.value))
  }
}

=== FILE: order_list.dfy ===
/** The order list page: per-row buttons and the query parameters of the list request. */
module OrderList {
  import opened Common
  import opened OrderDetails

  /** The buttons of one row: View, the quick status moves, and Delete. */
  datatype RowButton = ViewButton | SetStatus(status: string) | DeleteButton

  function RowButtons(status: string): (bs: seq<RowButton>)
    ensures |bs| >= 2 && bs[0] == ViewButton && bs[|bs| - 1] == DeleteButton
    ensures SetStatus("processing") in bs <==> status == "pending"
    ensures SetStatus("shipped") in bs <==> status == "processing"
    ensures forall s :: SetStatus(s) in bs ==> s == "processing" || s == "shipped"
  {
    [ViewButton]
    + (if status == "pending" then [SetStatus("processing")] else [])
    + (if status == "processing" then [SetStatus("shipped")] else [])
    + [DeleteButton]
  }

  /** Every quick move on a row is one the details page offers for the same status, and the
      list never marks an order delivered. */
  lemma {:induction false} RowMovesAreDetailMoves(status: string, s: string)
    requires SetStatus(s) in RowButtons(status)
    ensures s in StatusButtons(status)
    ensures s != "delivered" && s != "cancelled"
  {
    assert Forward(status) == Some(s);
  }

  /** `fetchOrders`' query: `status` and `user_id` are set only from non-empty filter fields. */
  method FilterParams(status: string, userId: string) returns (params: map<string, string>)
    ensures params.Keys <= {"status", "user_id"}
    ensures "status" in params <==> status != ""
    ensures "user_id" in params <==> userId != ""
    ensures "status" in params ==> params["status"] == status
    ensures "user_id" in params ==> params["user_id"] == userId
  {
    params := map[];
    if status != "" {
      params := params["status" := status];
    }
    if userId != "" {
      params := params["user_id" := userId];
    }
  }
}

=== FILE: pricing_calculator.dfy ===
/** The pricing calculator page (src/pages/products/PricingCalculator.jsx): a single-product
    form, an editable list of bundle lines, the two requests built from them, and the rule that
    picks how a returned price is displayed. */
module PricingCalculator {
  import opened Common
  import opened Text
  import opened Seqs
  import Api

  /** The single-product form and each bundle line share one shape. The quantity starts as the
      number 1 and becomes the typed text after an edit; `parseInt` reads both the same, so it
      is kept as text starting at "1". */
  datatype Line = Line(productId: string, quantity: string, customerId: string)

  const BLANK_LINE := Line("", "1", "")

  datatype LineField = ProductId | Quantity | CustomerId

  function Get(l: Line, f: LineField): string
  {
    match f
    case ProductId => l.productId
    case Quantity => l.quantity
    case CustomerId => l.customerId
  }

  /** `{ ...line, [field]: value }`: the named field takes the value and no other field changes. */
  function With(l: Line, f: LineField, v: string): (r: Line)
    ensures forall g :: Get(r, g) == if g == f then v else Get(l, g)
  {
    match f
    case ProductId => l.(productId := v)
    case Quantity => l.(quantity := v)
    case CustomerId => l.(customerId := v)
  }

  /** `customerId ? parseInt(customerId) : null`: an empty customer id is sent as null. */
  function CustomerValue(c: string): (v: Value)
    ensures c == "" ==> v == Null
    ensures c != "" ==> v == IntOrNull(ParseInt(c))
    ensures v != Null ==> ParseInt(c).Some? && v == Int(ParseInt(c).value)
  {
    if c == "" then Null else IntOrNull(ParseInt(c))
  }

  /** A customer id typed as a decimal number reaches the server as that number. */
  lemma CustomerRoundTrip(n: int)
    ensures CustomerValue(Decimal(n)) == Int(n)
  {
    ParseDecimal(n);
  }

  /** One line as the request carries it: product id and quantity through `parseInt`. */
  function LinePayload(l: Line): (v: Value)
    ensures v.Obj? && v.fields.Keys == {"productId", "quantity", "customerId"}
    ensures v.fields["productId"] == IntOrNull(ParseInt(l.productId))
    ensures v.fields["quantity"] == IntOrNull(ParseInt(l.quantity))
    ensures v.fields["customerId"] == CustomerValue(l.customerId)
  {
    Obj(map["productId" := IntOrNull(ParseInt(l.productId)),
            "quantity" := IntOrNull(ParseInt(l.quantity)),
            "customerId" := CustomerValue(l.customerId)])
  }

  /** What pressing a calculate button does: a warning toast, or a POST to a path of the
      product service. */
  datatype Outcome = Warn(message: string) | Send(req: Request)

  const PRICE_PATH := "/api/pricing/calculate"
  const BUNDLE_PATH := "/api/pricing/calculate-bundle"

  /** `calculatePrice`: nothing is sent while no product is selected. */
  function PriceRequest(c: Line): (o: Outcome)
    ensures o.Warn? <==> c.productId == ""
    ensures o.Send? ==> o.req.verb == Post && o.req.url == PRICE_PATH
    ensures o.Send? ==> o.req.body == LinePayload(c).fields
  {
    if c.productId == "" then Warn("Please select a product")
    else Send(Request(Post, PRICE_PATH, LinePayload(c).fields))
  }

  predicate Selected(l: Line) { l.productId != "" }

  /** `bundleItems.filter(item => item.productId)`. */
  function ValidLines(lines: seq<Line>): (r: seq<Line>)
    ensures forall l :: l in r <==> l in lines && Selected(l)
  {
    Filter(Selected, lines)
  }

  /** `calculateBundle`: only lines with a product are sent, each converted; nothing is sent
      when no line has one. */
  function BundleRequest(lines: seq<Line>): (o: Outcome)
    ensures o.Warn? <==> forall i :: 0 <= i < |lines| ==> !Selected(lines[i])
    ensures o.Send? ==> o.req.verb == Post && o.req.url == BUNDLE_PATH && o.req.body.Keys == {"items"}
    ensures o.Send? ==> o.req.body["items"] == Arr(Map(LinePayload, ValidLines(lines)))
  {
    var valid := ValidLines(lines);
    if |valid| == 0 then
      assert forall i :: 0 <= i < |lines| ==> lines[i] in lines;
      Warn("Please add at least one product")
    else
      assert valid[0] in valid;
      Send(Request(Post, BUNDLE_PATH, map["items" := Arr(Map(LinePayload, valid))]))
  }

  /** The lines a bundle request sends appear in the list in the same order, and every sent
      line has a product. */
  lemma BundleKeepsOrder(lines: seq<Line>)
    ensures exists idx :: Embeds(ValidLines(lines), lines, idx)
    ensures forall i :: 0 <= i < |ValidLines(lines)| ==> ValidLines(lines)[i].productId != ""
  {
    FilterKeepsOrder(Selected, lines);
    var idx :| Embeds(Filter(Selected, lines), lines, idx);
    assert Embeds(ValidLines(lines), lines, idx);
    assert forall i :: 0 <= i < |ValidLines(lines)| ==> ValidLines(lines)[i] in ValidLines(lines);
  }

  /** A freshly added blank line changes nothing in what the bundle request sends. */
  lemma BlankLineSendsNothing(lines: seq<Line>)
    ensures BundleRequest(lines + [BLANK_LINE]) == BundleRequest(lines)
  {
    FilterAppend(Selected, lines, [BLANK_LINE]);
    assert ValidLines(lines + [BLANK_LINE]) == ValidLines(lines);
  }

  /** The remove control of a line is rendered only while there is more than one line. */
  predicate RemoveShown(lines: seq<Line>) { |lines| > 1 }

  /** JavaScript truthiness of a JSON value: arrays and objects are truthy even when empty. */
  predicate Truthy(v: Value)
  {
    match v
    case Str(s) => s != ""
    case Int(i) => i != 0
    case Num(r) => r != 0.0
    case Bool(b) => b
    case Null => false
    case Arr(_) => true
    case Obj(_) => true
  }

  datatype Display = SingleBreakdown | BundleBreakdown

  /** `pricingResult.items ? <bundle> : <single>`: a result carrying an item list, even an
      empty one, is displayed as a bundle. */
  function DisplayOf(result: Value): (d: Display)
    requires result.Obj?
    ensures d == BundleBreakdown <==> "items" in result.fields && Truthy(result.fields["items"])
    ensures "items" in result.fields && result.fields["items"].Arr? ==> d == BundleBreakdown
    ensures "items" !in result.fields ==> d == SingleBreakdown
  {
    if "items" in result.fields && Truthy(result.fields["items"]) then BundleBreakdown else SingleBreakdown
  }

  /** The page's form state. */
  class Calculator {
    var single: Line
    var bundle: seq<Line>

    /** The bundle always has at least one line. */
    ghost predicate Valid()
      reads this
    {
      |bundle| >= 1
    }

    constructor ()
      ensures Valid() && single == BLANK_LINE && bundle == [BLANK_LINE]
    {
      single := BLANK_LINE;
      bundle := [BLANK_LINE];
    }

    /** An edit of the single-product form. */
    method SetSingle(f: LineField, v: string)
      modifies this
      ensures single == With(old(single), f, v) && bundle == old(bundle)
    {
      single := With(single, f, v);
    }

    /** `addBundleItem`: one blank line at the end. */
    method AddBundleItem()
      requires Valid()
      modifies this
      ensures Valid()
      ensures bundle == old(bundle) + [BLANK_LINE] && single == old(single)
    {
      bundle := bundle + [BLANK_LINE];
    }

    /** `removeBundleItem(index)`, reachable only through a rendered remove control. */
    method RemoveBundleItem(index: int)
      requires Valid() && RemoveShown(bundle)
      modifies this
      ensures Valid()
      ensures bundle == RemoveAt(old(bundle), index) && single == old(single)
    {
      bundle := RemoveAt(bundle, index);
    }

    /** `updateBundleItem(index, field, value)`: the one field of the one line changes. */
    method UpdateBundleItem(index: nat, f: LineField, v: string)
      requires Valid() && index < |bundle|
      modifies this
      ensures Valid()
      ensures bundle == old(bundle)[index := With(old(bundle)[index], f, v)] && single == old(single)
    {
      bundle := bundle[index := With(bundle[index], f, v)];
    }
  }

  /** Evaluating the page module, which builds its client from `SERVICES.PRODUCT` at import
      time: the client's base URL, or a failure that keeps the page (and the route table that
      imports it) from loading. */
  datatype ModuleLoad = ClientReady(baseUrl: string) | LoadFailure

  /** `services` is what the imported name `SERVICES` is bound to: `None` when the constants
      module exports no such name, which is a link error for native modules and a read of
      `PRODUCT` from `undefined` once bundled. A missing `PRODUCT` key gives an undefined base,
      which the client treats as none (""). */
  function LoadModule(services: Option<map<string, string>>): (l: ModuleLoad)
    ensures l == LoadFailure <==> services.None?
    ensures services.Some? && "PRODUCT" in services.value ==> l == ClientReady(services.value["PRODUCT"])
    ensures services.Some? && "PRODUCT" !in services.value ==> l == ClientReady("")
  {
    match services
    case None => LoadFailure
    case Some(m) => ClientReady(if "PRODUCT" in m then m["PRODUCT"] else "")
  }

  /** The `SERVICES` binding as written: present only if the constants module exports it. */
  function ImportedServices(exported: map<string, map<string, string>>): (services: Option<map<string, string>>)
    ensures services.Some? <==> "SERVICES" in exported
  {
    if "SERVICES" in exported then Some(exported["SERVICES"]) else None
  }

  /** As written, the constants module exports only `API`, so the page module fails to load. */
  lemma PageFailsToLoad(exported: map<string, map<string, string>>)
    requires exported.Keys <= Api.EXPORTED_NAMES
    ensures LoadModule(ImportedServices(exported)) == LoadFailure
  {
    assert "SERVICES" !in exported;
  }

  /** `calculatePrice` as evidently intended: the page imports the `API` builders the
      constants module does export and posts through the shared client, as the lifecycle page
      does. The check and the body are unchanged; the request goes to the product service's
      pricing endpoint. */
  function IntendedPriceRequest(gateway: string, c: Line): (o: Outcome)
    ensures o.Warn? <==> PriceRequest(c).Warn?
    ensures o.Send? ==> o.req == PriceRequest(c).req.(url := Api.Url(gateway, Api.OfProduct(Api.CalculatePrice)))
  {
    match PriceRequest(c)
    case Warn(m) => Warn(m)
    case Send(r) => Send(r.(url := Api.Url(gateway, Api.OfProduct(Api.CalculatePrice))))
  }

  /** `calculateBundlePrice` as evidently intended, likewise. */
  function IntendedBundleRequest(gateway: string, lines: seq<Line>): (o: Outcome)
    ensures o.Warn? <==> BundleRequest(lines).Warn?
    ensures o.Send? ==> o.req == BundleRequest(lines).req.(url := Api.Url(gateway, Api.OfProduct(Api.CalculateBundle)))
  {
    match BundleRequest(lines)
    case Warn(m) => Warn(m)
    case Send(r) => Send(r.(url := Api.Url(gateway, Api.OfProduct(Api.CalculateBundle))))
  }

  /** The intended page loads, since `API` is exported, and its two requests go to the
      product service's pricing endpoints, "pricing/calculate" and "pricing/calculate-bundle"
      under gateway + "/api/product/". */
  lemma {:induction false} IntendedPageLoads(gateway: string, c: Line, lines: seq<Line>)
    ensures "API" in Api.EXPORTED_NAMES
    ensures IntendedPriceRequest(gateway, c).Send? ==>
              IntendedPriceRequest(gateway, c).req.url == gateway + "/api/product/" + "pricing/calculate"
    ensures IntendedBundleRequest(gateway, lines).Send? ==>
              IntendedBundleRequest(gateway, lines).req.url == gateway + "/api/product/" + "pricing/calculate-bundle"
  {
    Api.ProductUrl(gateway, Api.CalculatePrice, "pricing/calculate");
    Api.ProductUrl(gateway, Api.CalculateBundle, "pricing/calculate-bundle");
  }
}

=== FILE: product_add.dfy ===
/** The add-product page (src/pages/products/ProductAdd.jsx): the form state, its change
    handler, and the product payload built from it on submit. */
module ProductAdd {
  import opened Common
  import opened Text

  /** What a change event stores: the typed text, or `checked` for a checkbox. */
  datatype Input = Typed(text: string) | Ticked(checked: bool)

  /** JavaScript truthiness of a stored input. */
  predicate Truthy(i: Input)
  {
    match i
    case Typed(s) => s != ""
    case Ticked(b) => b
  }

  /** The stored input as it is serialised. */
  function AsValue(i: Input): (v: Value)
    ensures i.Typed? ==> v == Str(i.text)
    ensures i.Ticked? ==> v == Bool(i.checked)
  {
    match i
    case Typed(s) => Str(s)
    case Ticked(b) => Bool(b)
  }

  /** `String(input)`, which `parseInt`/`parseFloat` read. */
  function AsText(i: Input): string
  {
    match i
    case Typed(s) => s
    case Ticked(b) => if b then "true" else "false"
  }

  /** The keys of the initial form. */
  const FORM_KEYS: set<string> := {"name", "description", "sku", "unit_price", "category_id", "size", "color"}

  /** The keys the payload always carries. */
  const REQUIRED_KEYS: set<string> := {"name", "sku", "unit_price", "description"}

  /** `handleSubmit`'s `productData` for `form`: name, sku, price and description always;
      category id, size and colour only when filled in; nothing else (no `is_active`). */
  predicate IsProductData(form: map<string, Input>, data: map<string, Value>)
  {
    && FORM_KEYS <= form.Keys
    && REQUIRED_KEYS <= data.Keys
    && data.Keys <= REQUIRED_KEYS + {"category_id", "size", "color"}
    && "is_active" !in data
    && data["name"] == AsValue(form["name"]) && data["sku"] == AsValue(form["sku"])
    && data["unit_price"] == NumOrNull(ParseFloat(AsText(form["unit_price"])))
    && data["description"] == (if Truthy(form["description"]) then AsValue(form["description"]) else Str(""))
    && ("category_id" in data <==> Truthy(form["category_id"]))
    && ("category_id" in data ==> data["category_id"] == IntOrNull(ParseInt(AsText(form["category_id"]))))
    && ("size" in data <==> Truthy(form["size"]))
    && ("size" in data ==> data["size"] == AsValue(form["size"]))
    && ("color" in data <==> Truthy(form["color"]))
    && ("color" in data ==> data["color"] == AsValue(form["color"]))
  }

  /** `handleSubmit`: the payload it builds from the form. */
  method BuildProductData(form: map<string, Input>) returns (data: map<string, Value>)
    requires FORM_KEYS <= form.Keys
    ensures IsProductData(form, data)
  {
    data := map["name" := AsValue(form["name"]),
                "sku" := AsValue(form["sku"]),
                "unit_price" := NumOrNull(ParseFloat(AsText(form["unit_price"]))),
                "description" := if Truthy(form["description"]) then AsValue(form["description"]) else Str("")];
    if Truthy(form["category_id"]) {
      data := data["category_id" := IntOrNull(ParseInt(AsText(form["category_id"])))];
    }
    if Truthy(form["size"]) {
      data := data["size" := AsValue(form["size"])];
    }
    if Truthy(form["color"]) {
      data := data["color" := AsValue(form["color"])];
    }
  }

  /** The page's form state. */
  class ProductForm {
    var form: map<string, Input>

    /** Every field of the initial form is present. */
    ghost predicate Valid()
      reads this
    {
      FORM_KEYS <= form.Keys
    }

    constructor ()
      ensures Valid()
      ensures form.Keys == FORM_KEYS && forall k :: k in form ==> form[k] == Typed("")
    {
      form := map k | k in FORM_KEYS :: Typed("");
    }

    /** `handleChange`: the named field stores `checked` for a checkbox and the text otherwise;
        no other field changes. */
    method HandleChange(name: string, value: string, isCheckbox: bool, checked: bool)
      requires Valid()
      modifies this
      ensures Valid()
      ensures form == old(form)[name := if isCheckbox then Ticked(checked) else Typed(value)]
    {
      form := form[name := if isCheckbox then Ticked(checked) else Typed(value)];
    }

    /** The payload that submitting the current form sends. */
    method Submit() returns (data: map<string, Value>)
      requires Valid()
      ensures IsProductData(form, data)
    {
      data := BuildProductData(form);
    }
  }
}

=== FILE: product_list.dfy ===
/** The product list page (src/pages/products/ProductList.jsx): the search filter over the
    fetched products, who may manage products, and what each card and the empty state show. */
module ProductList {
  import opened Common
  import opened Text
  import opened Seqs
  import opened Auth
  import AppRoutes

  datatype Product = Product(id: int, name: string, sku: string, isActive: bool)

  /** The name or the SKU contains the search term, ignoring ASCII case. */
  predicate Matches(term: string, p: Product)
  {
    Contains(ToLower(p.name), ToLower(term)) || Contains(ToLower(p.sku), ToLower(term))
  }

  /** `filteredProducts`. */
  function Search(products: seq<Product>, term: string): (r: seq<Product>)
    ensures |r| <= |products|
    ensures forall p :: p in r <==> p in products && Matches(term, p)
  {
    Filter(p => Matches(term, p), products)
  }

  /** The empty search term keeps every product, in order. */
  lemma EmptySearchKeepsAll(products: seq<Product>)
    ensures Search(products, "") == products
  {
    forall i | 0 <= i < |products|
      ensures Matches("", products[i])
    {
      ContainsEmpty(ToLower(products[i].name));
    }
    FilterAll(p => Matches("", p), products);
  }

  /** The products found appear in the list in the same order. */
  lemma SearchKeepsOrder(products: seq<Product>, term: string)
    ensures exists idx :: Embeds(Search(products, term), products, idx)
  {
    FilterKeepsOrder(p => Matches(term, p), products);
    var idx :| Embeds(Filter(p => Matches(term, p), products), products, idx);
    assert Embeds(Search(products, term), products, idx);
  }

  lemma LowerTwice(s: string)
    ensures ToLower(ToLower(s)) == ToLower(s)
  {
  }

  /** Typing the term in upper or lower case finds the same products. */
  lemma SearchIgnoresCase(products: seq<Product>, term: string)
    ensures Search(products, ToLower(term)) == Search(products, term)
  {
    LowerTwice(term);
    CountAgree(p => Matches(ToLower(term), p), p => Matches(term, p), products);
  }

  /** `canManageProducts`: the primary role is admin or warehouse staff. */
  predicate CanManageProducts(user: Option<User>)
  {
    user.Some? && (user.value.role == ADMIN || user.value.role == WAREHOUSE_STAFF)
  }

  /** For a user built by the sign-in mapping, the primary-role test agrees with the role
      list: supplier-only users are the ones who cannot manage products. */
  lemma ManagersHoldRole(u: User)
    requires WellFormed(u)
    ensures CanManageProducts(Some(u)) <==> ADMIN in u.roles || WAREHOUSE_STAFF in u.roles
    ensures !CanManageProducts(Some(u)) ==> u.roles == [SUPPLIER]
  {
    if ADMIN !in u.roles && WAREHOUSE_STAFF !in u.roles {
      assert IsRoleName(u.roles[0]) && u.roles[0] == SUPPLIER;
      assert |u.roles| > 1 ==> IsRoleName(u.roles[1]) && Rank(u.roles[0]) < Rank(u.roles[1]);
    }
  }

  /** The add and edit links are offered exactly to the users the router lets through. */
  lemma ManageLinksOpen(u: User)
    requires WellFormed(u)
    ensures AppRoutes.Resolve("/products/add", false, Some(u)).Rendered? <==> CanManageProducts(Some(u))
    ensures AppRoutes.Resolve("/products/edit/:id", false, Some(u)).Rendered? <==> CanManageProducts(Some(u))
  {
    ManagersHoldRole(u);
    AppRoutes.LayoutAccess("/products/add", u);
    AppRoutes.LayoutAccess("/products/edit/:id", u);
    assert AppRoutes.AW[0] == ADMIN && AppRoutes.AW[1] == WAREHOUSE_STAFF;
  }

  /** The button at the foot of a card: a link to the edit page, or a disabled "View Only". */
  datatype CardAction = EditLink(to: string) | ViewOnly

  function CardActionFor(canManage: bool, p: Product): (a: CardAction)
    ensures a.EditLink? <==> canManage
    ensures a.EditLink? ==> a.to == "/products/edit/" + Decimal(p.id)
  {
    if canManage then EditLink("/products/edit/" + Decimal(p.id)) else ViewOnly
  }

  /** The card badge: "Active" on success, "Inactive" on danger. */
  function ActiveBadge(p: Product): (b: (string, string))
    ensures p.isActive <==> b == ("success", "Active")
    ensures !p.isActive <==> b == ("danger", "Inactive")
  {
    if p.isActive then ("success", "Active") else ("danger", "Inactive")
  }

  /** "No products found" appears exactly when no product matches. */
  predicate ShowsNoProducts(products: seq<Product>, term: string)
  {
    |Search(products, term)| == 0
  }

  lemma NoProductsMeansNoMatch(products: seq<Product>, term: string)
    ensures ShowsNoProducts(products, term) <==> forall i :: 0 <= i < |products| ==> !Matches(term, products[i])
  {
    var r := Search(products, term);
    if |r| > 0 {
      assert r[0] in r;
    }
    assert forall i :: 0 <= i < |products| ==> products[i] in products;
  }
}

=== FILE: protected_route.dfy ===
/** The route guard wrapped around every page behind sign-in. */
module ProtectedRoute {
  import opened Common
  import opened Auth

  /** What the guard renders: a spinner, a `<Navigate replace>` to a path, or the guarded page. */
  datatype Outcome = Spinner | Redirect(to: string) | RenderChildren

  /** The guard's checks in order: loading, then a missing user, then the optional
      `allowedRoles` array (an absent prop skips the role check; any array, even an
      empty one, is truthy and is checked). */
  function Guard(loading: bool, user: Option<User>, allowedRoles: Option<seq<string>>): (o: Outcome)
    ensures loading ==> o == Spinner
    ensures !loading && user.None? ==> o == Redirect("/login")
    ensures o == RenderChildren <==>
              !loading && user.Some? &&
              (allowedRoles.None? || exists r :: r in allowedRoles.value && r in user.value.roles)
    ensures o.Redirect? ==> o.to == "/login" || o.to == "/products"
  {
    if loading then Spinner
    else if user.None? then Redirect("/login")
    else if allowedRoles.Some? && !HasRole(user, AnyOf(allowedRoles.value)) then Redirect("/products")
    else RenderChildren
  }

  /** The guard as evidently intended: a signed-in user who lacks the page's roles is sent to
      the landing page of their own role rather than to the product list, which itself turns
      suppliers away. Everything else is as in `Guard`. */
  function GuardToLanding(loading: bool, user: Option<User>, allowedRoles: Option<seq<string>>): (o: Outcome)
    ensures o == RenderChildren <==> Guard(loading, user, allowedRoles) == RenderChildren
    ensures user.Some? && Guard(loading, user, allowedRoles) == Redirect("/products") ==>
              o == Redirect(DashboardFor(user.value.role))
    ensures Guard(loading, user, allowedRoles) != Redirect("/products") ==> o == Guard(loading, user, allowedRoles)
  {
    if loading then Spinner
    else if user.None? then Redirect("/login")
    else if allowedRoles.Some? && !HasRole(user, AnyOf(allowedRoles.value)) then Redirect(DashboardFor(user.value.role))
    else RenderChildren
  }

  /** A signed-in user who lacks every allowed role is sent to the product list. */
  lemma RoleMismatchGoesToProducts(u: User, allowedRoles: seq<string>)
    requires forall r :: r in allowedRoles ==> r !in u.roles
    ensures Guard(false, Some(u), Some(allowedRoles)) == Redirect("/products")
  {
  }

  /** An empty `allowedRoles` array admits nobody. */
  lemma EmptyAllowedRolesAdmitsNobody(loading: bool, user: Option<User>)
    ensures Guard(loading, user, Some([])) != RenderChildren
  {
  }

  /** Nesting a guard without roles around a guard with roles (the layout route around a
      page route) behaves exactly like the inner guard. */
  function Nested(loading: bool, user: Option<User>, allowedRoles: Option<seq<string>>): (o: Outcome)
  {
    var outer := Guard(loading, user, None);
    if outer == RenderChildren then Guard(loading, user, allowedRoles) else outer
  }

  lemma OuterGuardAddsNothing(loading: bool, user: Option<User>, allowedRoles: Option<seq<string>>)
    ensures Nested(loading, user, allowedRoles) == Guard(loading, user, allowedRoles)
  {
  }
}

=== FILE: purchase_orders.dfy ===
/** The purchase orders page (warehouse side): who may manage orders, the buttons of each
    row, how a status change is sent, supplier names and the create/edit form state. */
module PurchaseOrders {
  import opened Common
  import opened Text
  import opened Auth
  import opened Seqs
  import Api

  /** Admins and warehouse staff (by primary role) may rate and delete purchase orders. */
  predicate CanManagePO(user: Option<User>)
  {
    user.Some? && (user.value.role == ADMIN || user.value.role == WAREHOUSE_STAFF)
  }

  /** A supplier's primary role never manages purchase orders here. */
  lemma {:induction false} SuppliersCannotManage(u: User)
    requires WellFormed(u) && u.roles == [SUPPLIER]
    ensures !CanManagePO(Some(u))
  {
  }

  /** `getStatusBadge(status)`: the badge variant of a purchase-order status. */
  function StatusVariant(status: string): (v: string)
    ensures v in {"warning", "info", "primary", "success", "danger", "default"}
    ensures v == "success" <==> status == "received"
    ensures v == "warning" <==> status == "pending"
    ensures v == "info" <==> status == "approved" || status == "confirmed"
    ensures v == "primary" <==> status == "ordered" || status == "shipped"
    ensures v == "danger" <==> status == "cancelled" || status == "rejected"
    ensures v == "default" <==> status !in {"pending", "approved", "ordered", "received", "cancelled", "confirmed", "shipped", "rejected"}
  {
    if status == "pending" then "warning"
    else if status == "approved" || status == "confirmed" then "info"
    else if status == "ordered" || status == "shipped" then "primary"
    else if status == "received" then "success"
    else if status == "cancelled" || status == "rejected" then "danger"
    else "default"
  }

  datatype RowButton = EditButton | MarkPreparing | ConfirmReceipt | RateButton | DeleteButton

  /** The buttons of one row, in display order. */
  function RowButtons(status: string, canManage: bool): (bs: seq<RowButton>)
    ensures |bs| >= 1 && bs[0] == EditButton
    ensures MarkPreparing in bs <==> status == "confirmed"
    ensures ConfirmReceipt in bs <==> status == "shipped"
    ensures RateButton in bs <==> status == "received" && canManage
    ensures DeleteButton in bs <==> canManage
    ensures !(MarkPreparing in bs && ConfirmReceipt in bs)
  {
    [EditButton]
    + (if status == "confirmed" then [MarkPreparing] else [])
    + (if status == "shipped" then [ConfirmReceipt] else [])
    + (if status == "received" && canManage then [RateButton] else [])
    + (if canManage then [DeleteButton] else [])
  }

  /** The status a status button sets. */
  function Target(b: RowButton): Option<string>
  {
    match b
    case MarkPreparing => Some("preparing")
    case ConfirmReceipt => Some("received")
    case _ => None
  }

  const RECEIVED_NOTE := "Shipment received by warehouse"

  /** `handleStatusUpdate(id, newStatus)`: "received" goes to the receive endpoint with the
      fixed note (so the backend also books the stock); anything else to the generic status
      endpoint with `{status}` (the `notes` argument is undefined and so not sent). */
  function StatusUpdate(gateway: string, id: Api.Key, newStatus: string): (req: Request)
    ensures req.verb == Patch
    ensures newStatus == "received" ==>
              req.url == Api.Url(gateway, Api.OfSupplier(Api.PurchaseOrderReceive(id))) &&
              req.body == map["notes" := Str(RECEIVED_NOTE)]
    ensures newStatus != "received" ==>
              req.url == Api.Url(gateway, Api.OfSupplier(Api.PurchaseOrderStatus(id))) &&
              req.body == map["status" := Str(newStatus)]
    ensures "status" in req.body <==> newStatus != "received"
  {
    if newStatus == "received" then
      Request(Patch, Api.Url(gateway, Api.OfSupplier(Api.PurchaseOrderReceive(id))), map["notes" := Str(RECEIVED_NOTE)])
    else
      Request(Patch, Api.Url(gateway, Api.OfSupplier(Api.PurchaseOrderStatus(id))), map["status" := Str(newStatus)])
  }

  /** Pressing a row's status button sends the status it names: Mark Preparing a generic
      update to "preparing", Confirm Receipt the receive call. */
  lemma {:induction false} RowStatusButtons(gateway: string, id: Api.Key, status: string, canManage: bool, b: RowButton)
    requires b in RowButtons(status, canManage) && Target(b).Some?
    ensures b == MarkPreparing ==> status == "confirmed" && StatusUpdate(gateway, id, Target(b).value).body["status"] == Str("preparing")
    ensures b == ConfirmReceipt ==> status == "shipped" && StatusUpdate(gateway, id, Target(b).value).body == map["notes" := Str(RECEIVED_NOTE)]
  {
  }

  datatype Supplier = Supplier(id: int, name: string)

  /** `getSupplierName(id)`: the name of the first supplier with that id, else "Supplier #<id>". */
  function SupplierName(suppliers: seq<Supplier>, supplierId: int): (name: string)
    ensures (forall i :: 0 <= i < |suppliers| ==> suppliers[i].id != supplierId) ==>
              name == "Supplier #" + Decimal(supplierId)
    ensures forall i :: 0 <= i < |suppliers| && suppliers[i].id == supplierId &&
                        (forall j :: 0 <= j < i ==> suppliers[j].id != supplierId) ==>
              name == suppliers[i].name
  {
    match Find((s: Supplier) => s.id == supplierId, suppliers)
    case Some(s) => s.name
    case None => "Supplier #" + Decimal(supplierId)
  }

  /** `fetchPurchaseOrders`' query: `status` and `supplier_id` only from non-empty filter fields. */
  method FilterParams(status: string, supplierId: string) returns (params: map<string, string>)
    ensures params.Keys <= {"status", "supplier_id"}
    ensures "status" in params <==> status != ""
    ensures "supplier_id" in params <==> supplierId != ""
    ensures "status" in params ==> params["status"] == status
    ensures "supplier_id" in params ==> params["supplier_id"] == supplierId
  {
    params := map[];
    if status != "" {
      params := params["status" := status];
    }
    if supplierId != "" {
      params := params["supplier_id" := supplierId];
    }
  }

  /** The blank create form; `today` is the current date as "YYYY-MM-DD". */
  function BlankForm(today: string): (f: map<string, string>)
    ensures f.Keys == {"supplier_id", "order_date", "expected_delivery_date", "total_amount", "status", "notes"}
    ensures f["status"] == "pending" && f["order_date"] == today
    ensures forall k :: k in f && k != "status" && k != "order_date" ==> f[k] == ""
  {
    map["supplier_id" := "", "order_date" := today, "expected_delivery_date" := "",
        "total_amount" := "", "status" := "pending", "notes" := ""]
  }

  /** The page's form state: the field values, the order being edited (its id) and
      whether the modal is open. */
  class OrderForm {
    var fields: map<string, string>
    var editing: Option<int>
    var modalOpen: bool

    constructor (today: string)
      ensures fields == BlankForm(today) && editing == None && !modalOpen
    {
      fields := BlankForm(today);
      editing := None;
      modalOpen := false;
    }

    /** `handleInputChange`: sets one field and leaves the rest. */
    method SetField(name: string, value: string)
      modifies this
      ensures fields == old(fields)[name := value]
      ensures editing == old(editing) && modalOpen == old(modalOpen)
    {
      fields := fields[name := value];
    }

    /** `resetForm`: the blank form, nothing being edited, the modal closed. */
    method Reset(today: string)
      modifies this
      ensures fields == BlankForm(today) && editing == None && !modalOpen
    {
      fields := BlankForm(today);
      editing := None;
      modalOpen := false;
    }
  }
}

=== FILE: purchase_requests.dfy ===
/** The purchase requests page (supplier side): the badge of each request, its buttons, the
    respond form and the payload it sends, and the counters at the top. */
module PurchaseRequests {
  import opened Common
  import opened Text
  import opened Seqs
  import Api

  /** A request as listed; the response and the quantity may be missing. */
  datatype PurchaseRequest = PurchaseRequest(
    id: int, status: string, supplierResponse: Option<string>, requestedQuantity: Option<int>)

  datatype Badge = Badge(variant: string, text: string)

  /** `getStatusBadge(status, supplierResponse)`: a pending, approved or rejected supplier
      response decides the badge; only otherwise is the status looked up. */
  function StatusBadge(status: string, supplierResponse: Option<string>): (b: Badge)
    ensures supplierResponse == Some("pending") ==> b == Badge("warning", "Pending Response")
    ensures supplierResponse == Some("approved") ==> b == Badge("success", "Approved")
    ensures supplierResponse == Some("rejected") ==> b == Badge("danger", "Rejected")
    ensures supplierResponse !in {Some("pending"), Some("approved"), Some("rejected")} ==>
              b.text == status && b.variant == StatusVariant(status)
  {
    if supplierResponse == Some("pending") then Badge("warning", "Pending Response")
    else if supplierResponse == Some("approved") then Badge("success", "Approved")
    else if supplierResponse == Some("rejected") then Badge("danger", "Rejected")
    else Badge(StatusVariant(status), status)
  }

  /** The status colour table, "secondary" for anything else. */
  function StatusVariant(status: string): (v: string)
    ensures v == "info" <==> status == "confirmed"
    ensures v == "warning" <==> status == "preparing"
    ensures v == "primary" <==> status == "shipped"
    ensures v == "success" <==> status == "received"
    ensures v == "danger" <==> status == "cancelled"
    ensures v == "secondary" <==> status !in {"confirmed", "preparing", "shipped", "received", "cancelled"}
  {
    if status == "confirmed" then "info"
    else if status == "preparing" then "warning"
    else if status == "shipped" then "primary"
    else if status == "received" then "success"
    else if status == "cancelled" then "danger"
    else "secondary"
  }

  /** The response decides the badge whatever the status. */
  lemma {:induction false} ResponseOverridesStatus(s1: string, s2: string, response: string)
    requires response in {"pending", "approved", "rejected"}
    ensures StatusBadge(s1, Some(response)) == StatusBadge(s2, Some(response))
  {
  }

  predicate ShowsRespond(r: PurchaseRequest)
  {
    r.supplierResponse == Some("pending")
  }

  predicate ShowsShip(r: PurchaseRequest)
  {
    r.supplierResponse == Some("approved") && r.status == "confirmed"
  }

  /** Respond and Mark Shipped never appear on the same request. */
  lemma {:induction false} NeverBothButtons(r: PurchaseRequest)
    ensures !(ShowsRespond(r) && ShowsShip(r))
  {
  }

  /** `handleRespond(request)`: "approved" preselected and the requested quantity copied into
      the quantity field (as the text `parseInt` will read back), or left empty when the
      request has none or asks for 0. */
  function RespondForm(r: PurchaseRequest): (form: map<string, string>)
    ensures form.Keys == {"response", "approved_quantity", "rejection_reason", "estimated_delivery_date", "supplier_notes"}
    ensures form["response"] == "approved"
    ensures form["approved_quantity"] == "" <==> r.requestedQuantity.None? || r.requestedQuantity == Some(0)
    ensures forall k :: k in form && k != "response" && k != "approved_quantity" ==> form[k] == ""
  {
    var q := if r.requestedQuantity.Some? && r.requestedQuantity.value != 0
             then Decimal(r.requestedQuantity.value) else "";
    map["response" := "approved", "approved_quantity" := q, "rejection_reason" := "",
        "estimated_delivery_date" := "", "supplier_notes" := ""]
  }

  /** `submitResponse`'s payload: the form spread, with `approved_quantity` replaced by its
      base-10 integer (null when the field is empty or not a number). */
  function ResponsePayload(form: map<string, string>): (body: map<string, Value>)
    ensures body.Keys == form.Keys + {"approved_quantity"}
    ensures forall k :: k in form && k != "approved_quantity" ==> body[k] == Str(form[k])
    ensures "approved_quantity" in form && form["approved_quantity"] != "" ==>
              body["approved_quantity"] == IntOrNull(ParseInt(form["approved_quantity"]))
    ensures !("approved_quantity" in form && form["approved_quantity"] != "") ==>
              body["approved_quantity"] == Null
  {
    var spread := map k | k in form :: Str(form[k]);
    spread["approved_quantity" :=
      if "approved_quantity" in form && form["approved_quantity"] != ""
      then IntOrNull(ParseInt(form["approved_quantity"])) else Null]
  }

  function RespondRequest(gateway: string, r: PurchaseRequest, form: map<string, string>): (req: Request)
    ensures req.verb == Patch && req.url == Api.Url(gateway, Api.OfSupplier(Api.PurchaseOrderRespond(Api.NumKey(r.id))))
    ensures req.body == ResponsePayload(form)
  {
    Request(Patch, Api.Url(gateway, Api.OfSupplier(Api.PurchaseOrderRespond(Api.NumKey(r.id)))), ResponsePayload(form))
  }

  /** Submitting the prefilled form unchanged approves exactly the requested quantity, and
      sends null when the request had no (or a zero) quantity. */
  lemma {:induction false} PrefilledQuantityRoundTrips(r: PurchaseRequest)
    ensures var body := ResponsePayload(RespondForm(r));
            body["response"] == Str("approved") &&
            body["approved_quantity"] ==
              (if r.requestedQuantity.Some? && r.requestedQuantity.value != 0
               then Int(r.requestedQuantity.value) else Null)
  {
    if r.requestedQuantity.Some? && r.requestedQuantity.value != 0 {
      ParseDecimal(r.requestedQuantity.value);
    }
  }

  /** `handleShip`'s form, sent as is to the ship endpoint. */
  const SHIP_FORM: map<string, Value> := map["tracking_number" := Str(""), "status" := Str("shipped")]

  /** The four counters: pending responses, approved responses, shipped and received. */
  function PendingCount(rs: seq<PurchaseRequest>): nat
  {
    Count((r: PurchaseRequest) => r.supplierResponse == Some("pending"), rs)
  }

  function ApprovedCount(rs: seq<PurchaseRequest>): nat
  {
    Count((r: PurchaseRequest) => r.supplierResponse == Some("approved"), rs)
  }

  function InTransitCount(rs: seq<PurchaseRequest>): nat
  {
    Count((r: PurchaseRequest) => r.status == "shipped", rs)
  }

  function CompletedCount(rs: seq<PurchaseRequest>): nat
  {
    Count((r: PurchaseRequest) => r.status == "received", rs)
  }

  /** Each pair of counters counts disjoint requests, so neither pair exceeds the list. */
  lemma {:induction false} CountersBounded(rs: seq<PurchaseRequest>)
    ensures PendingCount(rs) + ApprovedCount(rs) <= |rs|
    ensures InTransitCount(rs) + CompletedCount(rs) <= |rs|
  {
    CountDisjoint((r: PurchaseRequest) => r.supplierResponse == Some("pending"),
                  (r: PurchaseRequest) => r.supplierResponse == Some("approved"), rs);
    CountDisjoint((r: PurchaseRequest) => r.status == "shipped",
                  (r: PurchaseRequest) => r.status == "received", rs);
  }

  /** Every request with a Respond button is counted as pending. */
  lemma {:induction false} RespondableArePending(rs: seq<PurchaseRequest>, i: int)
    requires 0 <= i < |rs| && ShowsRespond(rs[i])
    ensures PendingCount(rs) >= 1
  {
    assert rs[i] in Filter((r: PurchaseRequest) => r.supplierResponse == Some("pending"), rs);
  }
}

=== FILE: root_redirect.dfy ===
/** The component mounted at "/": sends the visitor to a landing page or to sign-in. */
module RootRedirect {
  import opened Common
  import opened Auth

  /** What the redirect effect does: nothing, or `navigate(path, { replace })`. */
  datatype Navigation = Stay | NavigateTo(path: string, replace: bool)

  /** The landing page chosen from the primary role; the chain of comparisons is the same
      mapping as the provider's dashboard table, `Auth.DashboardFor`. */
  function Decide(isAuthenticated: bool, user: Option<User>): (n: Navigation)
    ensures n.NavigateTo? ==> n.replace
    ensures n == Stay <==> isAuthenticated && user.None?
    ensures !isAuthenticated ==> n == NavigateTo("/login", true)
    ensures isAuthenticated && user.Some? && user.value.role == ADMIN ==> n.path == "/dashboard/admin"
    ensures isAuthenticated && user.Some? && user.value.role == WAREHOUSE_STAFF ==> n.path == "/dashboard/warehouse"
    ensures isAuthenticated && user.Some? && user.value.role == SUPPLIER ==> n.path == "/dashboard/supplier"
    ensures isAuthenticated && user.Some? && !IsRoleName(user.value.role) ==> n.path == "/products"
  {
    if isAuthenticated && user.Some? then NavigateTo(DashboardFor(user.value.role), true)
    else if isAuthenticated then Stay
    else NavigateTo("/login", true)
  }

  /** A signed-in, loaded user built by the provider is never sent back to sign-in nor to
      the "/products" fallback. */
  lemma {:induction false} SignedInUserReachesDashboard(u: User)
    requires WellFormed(u)
    ensures Decide(true, Some(u)).NavigateTo?
    ensures Decide(true, Some(u)).path !in {"/login", "/products"}
  {
    WellFormedLandsOnDashboard(u);
  }
}

=== FILE: seqs.dfy ===
/** The array operations the pages use on fetched lists: `filter`, `filter(...).length`,
    `slice(0, n)` and `reduce` with a sum, with the facts the dashboards rely on. */
module Seqs {
  import opened Common

  /** `s.filter(p)`. */
  function Filter<T(!new)>(p: T -> bool, s: seq<T>): (r: seq<T>)
    ensures |r| <= |s|
    ensures forall x :: x in r <==> x in s && p(x)
    decreases |s|
  {
    if s == [] then [] else (if p(s[0]) then [s[0]] else []) + Filter(p, s[1..])
  }

  /** `idx` lists, in increasing order, positions of `b` holding the elements of `a`. */
  ghost predicate Embeds<T>(a: seq<T>, b: seq<T>, idx: seq<int>)
  {
    && |idx| == |a|
    && (forall k :: 0 <= k < |idx| ==> 0 <= idx[k] < |b| && a[k] == b[idx[k]])
    && (forall k, l :: 0 <= k < l < |idx| ==> idx[k] < idx[l])
  }

  /** An embedding into the tail of a list shifts to one into the whole list, which the
      head may then extend. */
  lemma EmbedsShift<T>(a: seq<T>, s: seq<T>, idx: seq<int>) returns (shifted: seq<int>)
    requires s != [] && Embeds(a, s[1..], idx)
    ensures Embeds(a, s, shifted)
    ensures Embeds([s[0]] + a, s, [0] + shifted)
  {
    shifted := seq(|idx|, k requires 0 <= k < |idx| => idx[k] + 1);
    forall k | 0 <= k < |idx|
      ensures 0 <= shifted[k] < |s| && a[k] == s[shifted[k]]
    {
      assert s[1..][idx[k]] == s[idx[k] + 1];
    }
    var b, e := [s[0]] + a, [0] + shifted;
    forall k | 0 < k < |e|
      ensures 0 <= e[k] < |s| && b[k] == s[e[k]]
    {
      assert e[k] == shifted[k - 1] && b[k] == a[k - 1];
    }
  }

  /** Filtering keeps the surviving elements in their original order. */
  lemma {:induction false} FilterKeepsOrder<T(!new)>(p: T -> bool, s: seq<T>)
    ensures exists idx :: Embeds(Filter(p, s), s, idx)
    decreases |s|
  {
    if s == [] {
      var none: seq<int> := [];
      assert Embeds(Filter(p, s), s, none);
    } else {
      FilterKeepsOrder(p, s[1..]);
      var idx :| Embeds(Filter(p, s[1..]), s[1..], idx);
      var shifted := EmbedsShift(Filter(p, s[1..]), s, idx);
      if p(s[0]) {
        assert Embeds(Filter(p, s), s, [0] + shifted);
      } else {
        assert Embeds(Filter(p, s), s, shifted);
      }
    }
  }

  /** `s.filter((_, i) => i !== index)`: drops position `index` when it exists and keeps
      everything else in order. */
  function RemoveAt<T>(s: seq<T>, index: int): (r: seq<T>)
    ensures 0 <= index < |s| ==>
              |r| == |s| - 1 &&
              (forall j :: 0 <= j < index ==> r[j] == s[j]) &&
              (forall j :: index <= j < |r| ==> r[j] == s[j + 1])
    ensures !(0 <= index < |s|) ==> r == s
  {
    if 0 <= index < |s| then s[..index] + s[index + 1..] else s
  }

  /** Filtering a concatenation filters each part. */
  lemma {:induction false} FilterAppend<T(!new)>(p: T -> bool, a: seq<T>, b: seq<T>)
    ensures Filter(p, a + b) == Filter(p, a) + Filter(p, b)
    decreases |a|
  {
    if a == [] {
      assert a + b == b;
    } else {
      assert (a + b)[1..] == a[1..] + b;
      FilterAppend(p, a[1..], b);
    }
  }

  /** Element i of a filtered list is the element of the list with exactly i survivors
      before it. */
  lemma {:induction false} FilterPosition<T(!new)>(p: T -> bool, s: seq<T>, i: int) returns (j: int)
    requires 0 <= i < |Filter(p, s)|
    ensures 0 <= j < |s| && p(s[j]) && Filter(p, s)[i] == s[j] && |Filter(p, s[..j])| == i
    decreases |s|
  {
    var init, last := s[..|s| - 1], s[|s| - 1];
    assert s == init + [last];
    FilterAppend(p, init, [last]);
    var f := Filter(p, init);
    if i < |f| {
      j := FilterPosition(p, init, i);
      assert s[..j] == init[..j];
    } else {
      j := |s| - 1;
      assert s[..j] == init;
    }
  }

  /** A filter every element passes keeps the whole list. */
  lemma {:induction false} FilterAll<T(!new)>(p: T -> bool, s: seq<T>)
    requires forall i :: 0 <= i < |s| ==> p(s[i])
    ensures Filter(p, s) == s
    decreases |s|
  {
    if s != [] {
      FilterAll(p, s[1..]);
    }
  }

  /** `s.filter(p).length`. */
  function Count<T(!new)>(p: T -> bool, s: seq<T>): nat
  {
    |Filter(p, s)|
  }

  /** Two predicates that never hold together count at most the length of the list. */
  lemma {:induction false} CountDisjoint<T(!new)>(p: T -> bool, q: T -> bool, s: seq<T>)
    requires forall i :: 0 <= i < |s| ==> !(p(s[i]) && q(s[i]))
    ensures Count(p, s) + Count(q, s) <= |s|
    decreases |s|
  {
    if s != [] {
      CountDisjoint(p, q, s[1..]);
    }
  }

  /** A predicate that holds exactly when one of two never-overlapping predicates holds
      counts their two counts together. */
  lemma {:induction false} CountUnion<T(!new)>(p: T -> bool, q: T -> bool, either: T -> bool, s: seq<T>)
    requires forall i :: 0 <= i < |s| ==> !(p(s[i]) && q(s[i])) && either(s[i]) == (p(s[i]) || q(s[i]))
    ensures Count(either, s) == Count(p, s) + Count(q, s)
    decreases |s|
  {
    if s != [] {
      CountUnion(p, q, either, s[1..]);
    }
  }

  /** Predicates that agree on every element count the same. */
  lemma {:induction false} CountAgree<T(!new)>(p: T -> bool, q: T -> bool, s: seq<T>)
    requires forall i :: 0 <= i < |s| ==> p(s[i]) == q(s[i])
    ensures Count(p, s) == Count(q, s)
    ensures Filter(p, s) == Filter(q, s)
    decreases |s|
  {
    if s != [] {
      CountAgree(p, q, s[1..]);
    }
  }

  /** `s.slice(0, n)`. */
  function Take<T>(s: seq<T>, n: nat): (r: seq<T>)
    ensures |r| <= n && |r| <= |s|
    ensures |s| <= n ==> r == s
    ensures forall k :: 0 <= k < |r| ==> r[k] == s[k]
  {
    if |s| <= n then s else s[..n]
  }

  /** `s.map(f)`. */
  function Map<T, U>(f: T -> U, s: seq<T>): (r: seq<U>)
    ensures |r| == |s| && forall k :: 0 <= k < |s| ==> r[k] == f(s[k])
  {
    seq(|s|, k requires 0 <= k < |s| => f(s[k]))
  }

  /** `s.reduce((sum, x) => sum + f(x), 0)`. */
  function Sum<T>(f: T -> int, s: seq<T>): int
    decreases |s|
  {
    if s == [] then 0 else Sum(f, s[..|s| - 1]) + f(s[|s| - 1])
  }

  /** The sum of non-negative terms is non-negative and at least each term. */
  lemma {:induction false} SumBounds<T>(f: T -> int, s: seq<T>)
    requires forall i :: 0 <= i < |s| ==> f(s[i]) >= 0
    ensures Sum(f, s) >= 0
    ensures forall i :: 0 <= i < |s| ==> f(s[i]) <= Sum(f, s)
    decreases |s|
  {
    if s != [] {
      var init := s[..|s| - 1];
      SumBounds(f, init);
      assert forall i :: 0 <= i < |init| ==> init[i] == s[i];
    }
  }

  /** Terms that agree give the same sum. */
  lemma {:induction false} SumAgree<T>(f: T -> int, g: T -> int, s: seq<T>)
    requires forall i :: 0 <= i < |s| ==> f(s[i]) == g(s[i])
    ensures Sum(f, s) == Sum(g, s)
    decreases |s|
  {
    if s != [] {
      SumAgree(f, g, s[..|s| - 1]);
    }
  }

  /** A sum of ones is the length. */
  lemma {:induction false} SumOnes<T>(f: T -> int, s: seq<T>)
    requires forall i :: 0 <= i < |s| ==> f(s[i]) == 1
    ensures Sum(f, s) == |s|
    decreases |s|
  {
    if s != [] {
      SumOnes(f, s[..|s| - 1]);
    }
  }

  /** A sum of 0/1 indicators of `p` is the number of elements satisfying `p`. */
  lemma {:induction false} SumCount<T(!new)>(f: T -> int, p: T -> bool, s: seq<T>)
    requires forall i :: 0 <= i < |s| ==> f(s[i]) == if p(s[i]) then 1 else 0
    ensures Sum(f, s) == Count(p, s)
    decreases |s|
  {
    if s != [] {
      var init, last := s[..|s| - 1], s[|s| - 1];
      SumCount(f, p, init);
      FilterAppend(p, init, [last]);
      assert init + [last] == s;
    }
  }

  /** The first element satisfying `p` (`s.find(p)`), if any. */
  function Find<T>(p: T -> bool, s: seq<T>): (r: Option<T>)
    ensures r.Some? <==> exists i :: 0 <= i < |s| && p(s[i])
    ensures r.Some? ==> exists i :: 0 <= i < |s| && r.value == s[i] && p(s[i]) &&
                                   forall j :: 0 <= j < i ==> !p(s[j])
    decreases |s|
  {
    if s == [] then None
    else if p(s[0]) then Some(s[0])
    else
      var r := Find(p, s[1..]);
      assert forall i :: 0 < i < |s| ==> s[i] == s[1..][i - 1];
      r
  }
}

=== FILE: sidebar.dfy ===
/** The navigation menu: a fixed table of entries, each with the roles that see it. */
module Sidebar {
  import opened Common
  import opened Auth
  import opened Seqs

  datatype MenuItem = MenuItem(name: string, path: string, roles: seq<string>)

  /** The roles of the signed-in user; none when signed out (`user?.roles`). */
  function Held(user: Option<User>): seq<string>
  {
    if user.Some? then user.value.roles else []
  }

  /** The dashboard entry's target, chosen from the user's roles in precedence order, with
      the admin dashboard as the fallback. */
  function DashboardPath(user: Option<User>): (path: string)
    ensures path in {"/dashboard/admin", "/dashboard/warehouse", "/dashboard/supplier"}
    ensures path == "/dashboard/warehouse" <==> ADMIN !in Held(user) && WAREHOUSE_STAFF in Held(user)
    ensures path == "/dashboard/supplier" <==>
              ADMIN !in Held(user) && WAREHOUSE_STAFF !in Held(user) && SUPPLIER in Held(user)
  {
    if ADMIN in Held(user) then "/dashboard/admin"
    else if WAREHOUSE_STAFF in Held(user) then "/dashboard/warehouse"
    else if SUPPLIER in Held(user) then "/dashboard/supplier"
    else "/dashboard/admin"
  }

  /** For a user built by the provider, the menu's dashboard entry is the landing page the
      provider navigates to after sign-in. */
  lemma {:induction false} DashboardEntryIsLandingPage(u: User)
    requires WellFormed(u)
    ensures DashboardPath(Some(u)) == DashboardFor(u.role)
  {
    assert IsRoleName(u.roles[0]) && u.roles[0] in u.roles;
  }

  function Menu(user: Option<User>): seq<MenuItem>
  {
    [ MenuItem("Dashboard", DashboardPath(user), [ADMIN, WAREHOUSE_STAFF, SUPPLIER]),
      MenuItem("Products", "/products", [ADMIN, WAREHOUSE_STAFF]),
      MenuItem("Product Lifecycle", "/products/lifecycle", [ADMIN]),
      MenuItem("Pricing Calculator", "/products/pricing", [ADMIN, WAREHOUSE_STAFF]),
      MenuItem("Categories", "/categories", [ADMIN, WAREHOUSE_STAFF]),
      MenuItem("Inventory", "/inventory", [ADMIN, WAREHOUSE_STAFF]),
      MenuItem("Low Stock Alerts", "/inventory/alerts", [ADMIN, WAREHOUSE_STAFF]),
      MenuItem("Suppliers", "/suppliers", [ADMIN]),
      MenuItem("Warehouse Staff", "/staff", [ADMIN]),
      MenuItem("Purchase Orders", "/purchase-orders", [ADMIN, WAREHOUSE_STAFF]),
      MenuItem("Purchase Requests", "/purchase-requests", [SUPPLIER]),
      MenuItem("Orders", "/orders", [ADMIN, WAREHOUSE_STAFF]),
      MenuItem("Health Monitor", "/health", [ADMIN]) ]
  }

  /** An entry is shown when one of its roles is among the user's roles. */
  predicate Shows(user: Option<User>, item: MenuItem)
  {
    Intersects(item.roles, Held(user))
  }

  /** The entries shown, in table order. */
  function VisibleItems(user: Option<User>): (items: seq<MenuItem>)
    ensures forall it :: it in items <==> it in Menu(user) && exists r :: r in it.roles && r in Held(user)
  {
    Filter(it => Shows(user, it), Menu(user))
  }

  /** The entries shown keep the table's order. */
  lemma MenuKeepsOrder(user: Option<User>)
    ensures exists idx :: Embeds(VisibleItems(user), Menu(user), idx)
  {
    FilterKeepsOrder(it => Shows(user, it), Menu(user));
    var idx :| Embeds(Filter(it => Shows(user, it), Menu(user)), Menu(user), idx);
    assert Embeds(VisibleItems(user), Menu(user), idx);
  }

  /** Product Lifecycle, Suppliers, Warehouse Staff and Health Monitor are shown to admins
      only, and the dashboard entry to all three roles. */
  lemma {:induction false} AdminOnlyEntries(user: Option<User>, i: int)
    requires 0 <= i < |Menu(user)|
    requires Menu(user)[i].name in {"Product Lifecycle", "Suppliers", "Warehouse Staff", "Health Monitor"}
    ensures Menu(user)[i].roles == [ADMIN]
    ensures Menu(user)[0].roles == [ADMIN, WAREHOUSE_STAFF, SUPPLIER]
  {
    var m := Menu(user);
    assert i == 2 || i == 7 || i == 8 || i == 12;
  }

  /** Signed out, the menu is empty. */
  lemma SignedOutMenuIsEmpty()
    ensures forall it :: it !in VisibleItems(None)
  {
  }

  /** A supplier sees exactly the supplier dashboard and the purchase requests. */
  lemma {:induction false} SupplierMenu(u: User, it: MenuItem)
    requires u.roles == [SUPPLIER]
    ensures it in VisibleItems(Some(u)) <==>
              it == MenuItem("Dashboard", "/dashboard/supplier", [ADMIN, WAREHOUSE_STAFF, SUPPLIER]) ||
              it == MenuItem("Purchase Requests", "/purchase-requests", [SUPPLIER])
  {
    assert DashboardPath(Some(u)) == "/dashboard/supplier";
    if it in Menu(Some(u)) && it.roles != [SUPPLIER] && it.roles != [ADMIN, WAREHOUSE_STAFF, SUPPLIER] {
      assert SUPPLIER !in it.roles;
    }
  }
}

=== FILE: stock_records.dfy ===
/** The inventory, product and stock-movement records the two stock dashboards read
    (src/pages/dashboards/WarehouseDashboard.jsx and src/pages/dashboards/AdminDashboard.jsx),
    and the small rules both pages apply to them. */
module StockRecords {
  import opened Common
  import opened Text
  import opened Seqs

  datatype InventoryRow = InventoryRow(productId: int, quantity: int, minQuantity: int)

  /** A product; a missing category name is the empty string. */
  datatype Product = Product(id: int, name: string, categoryName: string)

  datatype Movement = Movement(movementType: string, productId: int, quantity: int)

  /** `item.quantity < item.min_quantity`. */
  predicate IsLow(r: InventoryRow) { r.quantity < r.minQuantity }

  /** `product.category_name || "Uncategorized"`. */
  function CategoryOf(p: Product): (c: string)
    ensures p.categoryName != "" ==> c == p.categoryName
    ensures p.categoryName == "" ==> c == "Uncategorized"
    ensures c != ""
  {
    if p.categoryName != "" then p.categoryName else "Uncategorized"
  }

  /** `Math.abs`. */
  function Abs(n: int): (m: nat)
    ensures m == n || m == -n
  {
    if n < 0 then -n else n
  }

  /** "Product #" followed by the id. */
  function Placeholder(id: int): string
  {
    "Product #" + Decimal(id)
  }

  /** The stock total: the sum of all row quantities. */
  function TotalQuantity(rows: seq<InventoryRow>): int
  {
    Sum((r: InventoryRow) => r.quantity, rows)
  }

  /** With no negative quantities, the total is at least any single row. */
  lemma TotalCoversRows(rows: seq<InventoryRow>)
    requires forall i :: 0 <= i < |rows| ==> rows[i].quantity >= 0
    ensures TotalQuantity(rows) >= 0
    ensures forall i :: 0 <= i < |rows| ==> rows[i].quantity <= TotalQuantity(rows)
  {
    SumBounds((r: InventoryRow) => r.quantity, rows);
  }
}

=== FILE: supplier_dashboard.dfy ===
/** The supplier dashboard (src/pages/dashboards/SupplierDashboard.jsx): order counters by
    status, the status pie chart, which orders make up the revenue, and the recent-order list. */
module SupplierDashboard {
  import opened Common
  import opened Text
  import opened Seqs

  /** A purchase order as the dashboard reads it; a missing quantity is `None`. */
  datatype PurchaseOrder = PurchaseOrder(id: int, status: string, quantity: Option<int>)

  /** `purchaseOrders.data || []`. */
  function OrdersOf(data: Option<seq<PurchaseOrder>>): (orders: seq<PurchaseOrder>)
    ensures data.None? ==> orders == []
    ensures data.Some? ==> orders == data.value
  {
    match data
    case None => []
    case Some(os) => os
  }

  predicate IsPending(o: PurchaseOrder) { o.status == "pending" }
  predicate IsCompleted(o: PurchaseOrder) { o.status == "completed" }
  predicate IsCancelled(o: PurchaseOrder) { o.status == "cancelled" }

  datatype Stats = Stats(totalOrders: nat, pendingOrders: nat, completedOrders: nat, cancelledOrders: nat)

  /** The counters: every order, and the orders whose status is exactly pending, completed or
      cancelled. */
  function StatsOf(orders: seq<PurchaseOrder>): (st: Stats)
    ensures st.totalOrders == |orders|
    ensures st.pendingOrders == Count(IsPending, orders)
    ensures st.completedOrders == Count(IsCompleted, orders)
    ensures st.cancelledOrders == Count(IsCancelled, orders)
  {
    Stats(|orders|, Count(IsPending, orders), Count(IsCompleted, orders), Count(IsCancelled, orders))
  }

  /** The three status counters never exceed the number of orders. */
  lemma StatusCountsBounded(orders: seq<PurchaseOrder>)
    ensures var st := StatsOf(orders);
            st.pendingOrders + st.completedOrders + st.cancelledOrders <= st.totalOrders
  {
    var either := (o: PurchaseOrder) => IsPending(o) || IsCompleted(o);
    CountUnion(IsPending, IsCompleted, either, orders);
    CountDisjoint(either, IsCancelled, orders);
  }

  datatype Slice = Slice(name: string, value: nat, color: string)

  /** The status pie: completed, pending, cancelled, in that order. */
  function StatusPie(st: Stats): (pie: seq<Slice>)
    ensures |pie| == 3
    ensures pie[0].name == "Completed" && pie[0].value == st.completedOrders
    ensures pie[1].name == "Pending" && pie[1].value == st.pendingOrders
    ensures pie[2].name == "Cancelled" && pie[2].value == st.cancelledOrders
  {
    [Slice("Completed", st.completedOrders, "#10B981"),
     Slice("Pending", st.pendingOrders, "#F97316"),
     Slice("Cancelled", st.cancelledOrders, "#EF4444")]
  }

  /** The orders whose amounts are summed into the revenue figure. */
  function RevenueOrders(orders: seq<PurchaseOrder>): (r: seq<PurchaseOrder>)
    ensures forall o :: o in r <==> o in orders && o.status == "completed"
    ensures |r| == StatsOf(orders).completedOrders
  {
    Filter(IsCompleted, orders)
  }

  datatype RecentOrder = RecentOrder(id: string, product: string, qty: int, status: string)

  /** `order.quantity || 0`. */
  function QuantityShown(q: Option<int>): (n: int)
    ensures q.None? ==> n == 0
    ensures q.Some? ==> n == q.value
  {
    match q
    case None => 0
    case Some(v) => v
  }

  /** The recent orders: the first three, labelled "PO-<id>" and "Order #<id>". */
  function RecentOrders(orders: seq<PurchaseOrder>): (r: seq<RecentOrder>)
    ensures |r| == if |orders| < 3 then |orders| else 3
    ensures forall i :: 0 <= i < |r| ==>
              r[i].id == "PO-" + Decimal(orders[i].id) && r[i].product == "Order #" + Decimal(orders[i].id) &&
              r[i].qty == QuantityShown(orders[i].quantity) && r[i].status == orders[i].status
  {
    Map((o: PurchaseOrder) => RecentOrder("PO-" + Decimal(o.id), "Order #" + Decimal(o.id),
                                          QuantityShown(o.quantity), o.status),
        Take(orders, 3))
  }

  /** Distinct orders get distinct "PO-" labels. */
  lemma RecentLabelsIdentifyOrders(a: int, b: int)
    requires a != b
    ensures "PO-" + Decimal(a) != "PO-" + Decimal(b)
  {
    ParseDecimal(a);
    ParseDecimal(b);
    var x, y := "PO-" + Decimal(a), "PO-" + Decimal(b);
    assert x[3..] == Decimal(a) && y[3..] == Decimal(b);
  }
}

=== FILE: text.dfy ===
/** Shared value types: an optional value and the JSON values that request bodies carry. */
module Common {

  datatype Option<+T> = None | Some(value: T)

  /** A JSON value as the front end serialises it. `parseInt`/`parseFloat` results that are
      NaN are serialised as `null`, which `IntOrNull` and `NumOrNull` make explicit. */
  datatype Value =
    | Str(s: string) | Int(i: int) | Num(r: real) | Bool(b: bool) | Null
    | Arr(elems: seq<Value>) | Obj(fields: map<string, Value>)

  /** An HTTP request a page sends: method, URL and JSON body (keys whose value is
      `undefined` are absent, as `JSON.stringify` drops them). */
  datatype Verb = Get | Post | Put | Patch | Delete
  datatype Request = Request(verb: Verb, url: string, body: map<string, Value>)

  function IntOrNull(o: Option<int>): (v: Value)
    ensures o.Some? <==> v.Int?
    ensures o.Some? ==> v == Int(o.value)
  {
    match o
    case Some(i) => Int(i)
    case None => Null
  }

  function NumOrNull(o: Option<real>): (v: Value)
    ensures o.Some? <==> v.Num?
    ensures o.Some? ==> v == Num(o.value)
  {
    match o
    case Some(r) => Num(r)
    case None => Null
  }
}

/** The string operations the pages use: decimal rendering of numbers (template strings),
    `parseInt(s, 10)`, ASCII `toLowerCase`, `includes`, and `split(sep)[1]`. */
module Text {
  import opened Common

  predicate IsDigit(c: char) { '0' <= c <= '9' }

  predicate AllDigits(s: string) { forall i :: 0 <= i < |s| ==> IsDigit(s[i]) }

  function DigitChar(d: nat): (c: char)
    requires d < 10
    ensures IsDigit(c) && c as int - '0' as int == d
  {
    (d + '0' as int) as char
  }

  function DigitValue(c: char): (d: nat)
    requires IsDigit(c)
    ensures d < 10
  {
    c as int - '0' as int
  }

  /** Decimal digits of a natural number, most significant first, without leading zeros. */
  function NatToString(n: nat): (s: string)
    ensures |s| > 0 && AllDigits(s)
    ensures n > 0 ==> s[0] != '0'
    decreases n
  {
    if n < 10 then [DigitChar(n)] else NatToString(n / 10) + [DigitChar(n % 10)]
  }

  /** `${n}` for an integer `n`. */
  function Decimal(n: int): (s: string)
    ensures |s| > 0
    ensures n >= 0 <==> s[0] != '-'
  {
    if n < 0 then "-" + NatToString(-n) else NatToString(n)
  }

  /** `acc` followed by the digits of `s`, read left to right. */
  function Accumulate(s: string, acc: nat): nat
    requires AllDigits(s)
    decreases |s|
  {
    if s == [] then acc else Accumulate(s[1..], acc * 10 + DigitValue(s[0]))
  }

  lemma {:induction false} AccumulateAppend(a: string, b: string, acc: nat)
    requires AllDigits(a) && AllDigits(b)
    ensures AllDigits(a + b)
    ensures Accumulate(a + b, acc) == Accumulate(b, Accumulate(a, acc))
    decreases |a|
  {
    if a != [] {
      assert (a + b)[1..] == a[1..] + b;
      AccumulateAppend(a[1..], b, acc * 10 + DigitValue(a[0]));
    } else {
      assert a + b == b;
    }
  }

  /** The digits of `n` read back give `n`. */
  lemma {:induction false} AccumulateOfNat(n: nat)
    ensures Accumulate(NatToString(n), 0) == n
    decreases n
  {
    var s := NatToString(n);
    if n < 10 {
      assert s[1..] == [];
    } else {
      var c := [DigitChar(n % 10)];
      AccumulateOfNat(n / 10);
      AccumulateAppend(NatToString(n / 10), c, 0);
      assert c[1..] == [];
    }
  }

  /** JavaScript's white space and line terminators, which `parseInt` and `parseFloat` skip. */
  predicate IsSpace(c: char)
  {
    || c == ' ' || c == '\t' || c == '\n' || c == '\r' || c == '\U{000B}' || c == '\U{000C}'
    || c == '\U{00A0}' || c == '\U{1680}' || ('\U{2000}' <= c <= '\U{200A}') || c == '\U{2028}'
    || c == '\U{2029}' || c == '\U{202F}' || c == '\U{205F}' || c == '\U{3000}' || c == '\U{FEFF}'
  }

  /** The digit run at the front of `s`, continuing an accumulated value; `None` when no
      digit was read at all. */
  function DigitRun(s: string, acc: nat, seen: bool): Option<nat>
    decreases |s|
  {
    if s != [] && IsDigit(s[0]) then DigitRun(s[1..], acc * 10 + DigitValue(s[0]), true)
    else if seen then Some(acc) else None
  }

  /** `parseInt(s, 10)`: skip leading white space, read an optional sign and the longest run of
      decimal digits; `None` stands for NaN (no digit at all). */
  function ParseInt(s: string): Option<int>
    decreases |s|
  {
    if s != [] && IsSpace(s[0]) then ParseInt(s[1..])
    else if s != [] && (s[0] == '-' || s[0] == '+') then
      match DigitRun(s[1..], 0, false)
      case Some(v) => Some(if s[0] == '-' then -(v as int) else v as int)
      case None => None
    else
      match DigitRun(s, 0, false)
      case Some(v) => Some(v)
      case None => None
  }

  lemma {:induction false} DigitRunOfDigits(d: string, acc: nat, seen: bool)
    requires AllDigits(d) && (d != [] || seen)
    ensures DigitRun(d, acc, seen) == Some(Accumulate(d, acc))
    decreases |d|
  {
    if d != [] {
      DigitRunOfDigits(d[1..], acc * 10 + DigitValue(d[0]), true);
    }
  }

  /** Rendering an integer and reading it back with `parseInt` gives the integer back. */
  lemma ParseDecimal(n: int)
    ensures ParseInt(Decimal(n)) == Some(n)
  {
    var a: nat := if n < 0 then -n else n;
    var d := NatToString(a);
    DigitRunOfDigits(d, 0, false);
    AccumulateOfNat(a);
    if n < 0 {
      assert Decimal(n)[1..] == d;
    }
  }

  /** The integer part of a decimal number, then an optional fraction after a point. */
  function FloatRun(s: string, acc: real, seen: bool): Option<real>
    decreases |s|
  {
    if s != [] && IsDigit(s[0]) then FloatRun(s[1..], acc * 10.0 + DigitValue(s[0]) as real, true)
    else if s != [] && s[0] == '.' then FractionRun(s[1..], acc, 0.1, seen)
    else if seen then Some(acc) else None
  }

  function FractionRun(s: string, acc: real, scale: real, seen: bool): Option<real>
    decreases |s|
  {
    if s != [] && IsDigit(s[0]) then FractionRun(s[1..], acc + DigitValue(s[0]) as real * scale, scale / 10.0, true)
    else if seen then Some(acc) else None
  }

  /** `parseFloat(s)` for plain decimal notation: skip leading white space, read an optional
      sign, a run of digits and an optional fraction; `None` stands for NaN (no digit on
      either side of the point). */
  function ParseFloat(s: string): Option<real>
    decreases |s|
  {
    if s != [] && IsSpace(s[0]) then ParseFloat(s[1..])
    else if s != [] && (s[0] == '-' || s[0] == '+') then
      match FloatRun(s[1..], 0.0, false)
      case Some(v) => Some(if s[0] == '-' then -v else v)
      case None => None
    else FloatRun(s, 0.0, false)
  }

  /** `parseFloat(s) || 0`: NaN (and zero) become 0. */
  function FloatOrZero(s: string): real
  {
    match ParseFloat(s)
    case Some(r) => r
    case None => 0.0
  }

  lemma {:induction false} FloatRunOfDigits(d: string, acc: nat, seen: bool)
    requires AllDigits(d) && (d != [] || seen)
    ensures FloatRun(d, acc as real, seen) == Some(Accumulate(d, acc) as real)
    decreases |d|
  {
    if d != [] {
      FloatRunOfDigits(d[1..], acc * 10 + DigitValue(d[0]), true);
    }
  }

  /** An integer rendered in decimal is read back by `parseFloat` as the same number, and
      the empty string is NaN. */
  lemma ParseFloatDecimal(n: int)
    ensures ParseFloat(Decimal(n)) == Some(n as real)
    ensures ParseFloat("") == None
  {
    var a: nat := if n < 0 then -n else n;
    var d := NatToString(a);
    FloatRunOfDigits(d, 0, false);
    AccumulateOfNat(a);
    if n < 0 {
      assert Decimal(n)[1..] == d;
    }
  }

  /** ASCII `toLowerCase`. */
  function LowerChar(c: char): (d: char)
    ensures 'A' <= c <= 'Z' ==> d as int == c as int + 32
    ensures !('A' <= c <= 'Z') ==> d == c
  {
    if 'A' <= c <= 'Z' then (c as int + 32) as char else c
  }

  function ToLower(s: string): (t: string)
    ensures |t| == |s| && forall i :: 0 <= i < |s| ==> t[i] == LowerChar(s[i])
  {
    seq(|s|, i requires 0 <= i < |s| => LowerChar(s[i]))
  }

  /** `s.replace(/x/g, y)` for a single character `x`: every `x` becomes `y`, nothing else moves. */
  function ReplaceAll(s: string, x: char, y: char): (t: string)
    ensures |t| == |s| && forall i :: 0 <= i < |s| ==> t[i] == (if s[i] == x then y else s[i])
    ensures x != y ==> x !in t
  {
    seq(|s|, i requires 0 <= i < |s| => if s[i] == x then y else s[i])
  }

  /** `sub` occurs in `s` starting at position `j`. */
  predicate OccursAt(s: string, sub: string, j: int)
  {
    0 <= j && j + |sub| <= |s| && s[j..j + |sub|] == sub
  }

  /** `s.includes(sub)`. */
  predicate Contains(s: string, sub: string)
  {
    exists j | 0 <= j <= |s| - |sub| :: OccursAt(s, sub, j)
  }

  lemma ContainsEmpty(s: string)
    ensures Contains(s, "")
  {
    assert OccursAt(s, "", 0);
  }

  lemma ContainsSelf(s: string)
    ensures Contains(s, s)
  {
    assert OccursAt(s, s, 0);
  }

  /** First occurrence of a non-empty `sub` in `s` at or after position `from`. */
  function IndexFrom(s: string, sub: string, from: nat): (r: Option<nat>)
    requires |sub| > 0
    ensures r.Some? ==> from <= r.value && OccursAt(s, sub, r.value)
    ensures r.Some? ==> forall j :: from <= j < r.value ==> !OccursAt(s, sub, j)
    ensures r.None? ==> forall j :: from <= j ==> !OccursAt(s, sub, j)
    decreases |s| - from
  {
    if from + |sub| > |s| then None
    else if s[from..from + |sub|] == sub then Some(from)
    else IndexFrom(s, sub, from + 1)
  }

  /** `s.split(sep)[1]`: the text between the first and the second occurrence of `sep` (or the
      end of `s`); `None` (JavaScript's `undefined`) when `sep` does not occur. */
  function SecondPiece(s: string, sep: string): (r: Option<string>)
    requires |sep| > 0
    ensures r.None? <==> !Contains(s, sep)
  {
    match IndexFrom(s, sep, 0)
    case None => None
    case Some(i) =>
      var rest := s[i + |sep|..];
      match IndexFrom(rest, sep, 0)
      case None => Some(rest)
      case Some(j) => Some(rest[..j])
  }

  /** When `sep` occurs exactly once, at the end of `prefix`, the second piece is what follows it. */
  lemma SecondPieceOfSingle(prefix: string, sep: string, tail: string)
    requires |sep| > 0
    requires forall j :: OccursAt(prefix + sep + tail, sep, j) ==> j == |prefix|
    ensures SecondPiece(prefix + sep + tail, sep) == Some(tail)
  {
    var s := prefix + sep + tail;
    assert s[|prefix|..|prefix| + |sep|] == sep;
    assert OccursAt(s, sep, |prefix|);
    var rest := s[|prefix| + |sep|..];
    assert rest == tail;
    forall j | OccursAt(rest, sep, j) ensures false {
      assert s[|prefix| + |sep| + j..|prefix| + |sep| + j + |sep|] == rest[j..j + |sep|];
      assert OccursAt(s, sep, |prefix| + |sep| + j);
    }
  }
}

=== FILE: warehouse_dashboard.dfy ===
/** The warehouse dashboard (src/pages/dashboards/WarehouseDashboard.jsx): stock counters, the
    stock-per-category chart, the low-stock list and the recent-movement list. A `.data` field
    that the response lacks is `None`. */
module WarehouseDashboard {
  import opened Common
  import opened Text
  import opened Seqs
  import opened Buckets
  import opened StockRecords

  /** The counters; "today's movements" depends on the clock and is not modelled. */
  datatype Stats = Stats(totalInventory: int, lowStockItems: nat, pendingAdjustments: nat)

  function StatsOf(inventory: Option<seq<InventoryRow>>): (st: Stats)
    ensures inventory.None? ==> st == Stats(0, 0, 0)
    ensures inventory.Some? ==> st.totalInventory == TotalQuantity(inventory.value)
    ensures inventory.Some? ==> st.lowStockItems == Count(IsLow, inventory.value) <= |inventory.value|
    ensures st.pendingAdjustments == 0
  {
    match inventory
    case None => Stats(0, 0, 0)
    case Some(rows) => Stats(TotalQuantity(rows), Count(IsLow, rows), 0)
  }

  /** `inventory.find(inv => inv.product_id === product.id)?.quantity || 0`. */
  function QuantityOf(p: Product, rows: seq<InventoryRow>): (q: int)
    ensures (forall i :: 0 <= i < |rows| ==> rows[i].productId != p.id) ==> q == 0
    ensures forall i :: 0 <= i < |rows| && rows[i].productId == p.id &&
                        (forall j :: 0 <= j < i ==> rows[j].productId != p.id) ==>
              q == rows[i].quantity
  {
    match Find((r: InventoryRow) => r.productId == p.id, rows)
    case Some(r) => r.quantity
    case None => 0
  }

  /** The chart shown while products or inventory are missing or there are no products. */
  const PLACEHOLDER_STOCK := [Entry("Electronics", 450), Entry("Clothing", 320), Entry("Food", 280)]

  /** The category stock of every product, in first-seen category order. */
  function CategoryStock(products: seq<Product>, rows: seq<InventoryRow>): seq<Entry>
  {
    Tally(CategoryOf, (p: Product) => QuantityOf(p, rows), products)
  }

  /** Each category holds the stock of its products, the categories are those of the products,
      each once, and together they hold the stock of every product. */
  lemma CategoryStockSums(products: seq<Product>, rows: seq<InventoryRow>, k: string)
    ensures Distinct(CategoryStock(products, rows))
    ensures Lookup(CategoryStock(products, rows), k) ==
            Sum((p: Product) => if CategoryOf(p) == k then QuantityOf(p, rows) else 0, products)
    ensures Has(CategoryStock(products, rows), k) <==> exists i :: 0 <= i < |products| && CategoryOf(products[i]) == k
    ensures Total(CategoryStock(products, rows)) == Sum((p: Product) => QuantityOf(p, rows), products)
  {
    var val := (p: Product) => QuantityOf(p, rows);
    TallyLookup(CategoryOf, val, products, k, (p: Product) => if CategoryOf(p) == k then QuantityOf(p, rows) else 0);
    TallyKeys(CategoryOf, val, products, k);
    TallyTotal(CategoryOf, val, products);
  }

  /** The stock chart: the first five categories, or the placeholder data. */
  method StockChart(products: Option<seq<Product>>, inventory: Option<seq<InventoryRow>>) returns (chart: seq<Entry>)
    ensures |chart| <= 5
    ensures products.Some? && |products.value| > 0 && inventory.Some? ==>
              chart == Take(CategoryStock(products.value, inventory.value), 5)
    ensures !(products.Some? && |products.value| > 0 && inventory.Some?) ==> chart == PLACEHOLDER_STOCK
  {
    if products.Some? && |products.value| > 0 && inventory.Some? {
      var rows := inventory.value;
      var all := Group(CategoryOf, (p: Product) => QuantityOf(p, rows), products.value);
      chart := Take(all, 5);
    } else {
      chart := PLACEHOLDER_STOCK;
    }
  }

  /** `products.find(p => p.id === id)?.name || "Product #" + id`. */
  function NameOf(products: Option<seq<Product>>, id: int): (n: string)
    ensures products.None? ==> n == Placeholder(id)
    ensures products.Some? && (forall i :: 0 <= i < |products.value| ==> products.value[i].id != id) ==>
              n == Placeholder(id)
    ensures products.Some? ==>
              forall i :: 0 <= i < |products.value| && products.value[i].id == id &&
                          (forall j :: 0 <= j < i ==> products.value[j].id != id) ==>
                n == if products.value[i].name != "" then products.value[i].name else Placeholder(id)
  {
    match products
    case None => Placeholder(id)
    case Some(ps) =>
      match Find((p: Product) => p.id == id, ps)
      case Some(p) => if p.name != "" then p.name else Placeholder(id)
      case None => Placeholder(id)
  }

  datatype LowStockEntry = LowStockEntry(name: string, qty: int, min: int)

  /** The low-stock list: the first three low rows, in order, with their product names; empty
      until both lists have arrived. */
  function LowStockList(inventory: Option<seq<InventoryRow>>, products: Option<seq<Product>>): (r: seq<LowStockEntry>)
    ensures |r| <= 3
    ensures inventory.None? || products.None? ==> r == []
    ensures inventory.Some? && products.Some? ==>
              var low := Filter(IsLow, inventory.value);
              |r| == if |low| < 3 then |low| else 3
    ensures inventory.Some? && products.Some? ==>
              var low := Filter(IsLow, inventory.value);
              forall i :: 0 <= i < |r| ==>
                r[i] == LowStockEntry(NameOf(products, low[i].productId), low[i].quantity, low[i].minQuantity)
    ensures forall i :: 0 <= i < |r| ==> r[i].qty < r[i].min
  {
    if inventory.Some? && products.Some? then
      var low := Filter(IsLow, inventory.value);
      assert forall i :: 0 <= i < |low| ==> low[i] in low;
      Map((row: InventoryRow) => LowStockEntry(NameOf(products, row.productId), row.quantity, row.minQuantity),
          Take(low, 3))
    else []
  }

  /** Entry i of the low-stock list is the inventory row with exactly i low rows before it:
      the list holds the first low rows in inventory order, each with its product's name,
      quantity and minimum. */
  lemma LowStockEntriesAreLowRows(inventory: seq<InventoryRow>, products: seq<Product>, i: int)
    requires 0 <= i < |LowStockList(Some(inventory), Some(products))|
    ensures exists j :: 0 <= j < |inventory| && IsLow(inventory[j]) && Count(IsLow, inventory[..j]) == i &&
                        LowStockList(Some(inventory), Some(products))[i] ==
                          LowStockEntry(NameOf(Some(products), inventory[j].productId),
                                        inventory[j].quantity, inventory[j].minQuantity)
  {
    var j := FilterPosition(IsLow, inventory, i);
  }

  datatype MovementEntry = MovementEntry(kind: string, product: string, qty: nat)

  /** The recent movements: the first three, quantity shown without sign; empty when there are
      none. */
  function RecentMovements(movements: Option<seq<Movement>>, products: Option<seq<Product>>): (r: seq<MovementEntry>)
    ensures |r| <= 3
    ensures movements.None? || movements.value == [] ==> r == []
    ensures movements.Some? ==> |r| == if |movements.value| < 3 then |movements.value| else 3
    ensures movements.Some? ==> forall i :: 0 <= i < |r| ==>
              r[i].kind == movements.value[i].movementType &&
              r[i].qty == Abs(movements.value[i].quantity) &&
              r[i].product == NameOf(products, movements.value[i].productId)
  {
    if movements.Some? && |movements.value| > 0 then
      Map((m: Movement) => MovementEntry(m.movementType, NameOf(products, m.productId), Abs(m.quantity)),
          Take(movements.value, 3))
    else []
  }
}
